=== FILE: README.md ===
# dataspeech enrichment and prompt annotation, modelled in Dafny

This project models two programs of the dataspeech repository.

- **`main.py`** enriches a speech dataset with acoustic features. It takes an optional
  debug subset and optionally renames the audio and text columns. It then runs four
  feature passes: quality (squim), pitch, SNR/reverberation and speaking rate, each
  with an execution plan (pool size, device ranks, batching) derived from the
  command-line settings and the number of visible devices. The speaking-rate pass is
  gated on the first split's `speech_duration` column. Finally, every split's derived
  columns are merged onto the pitch result by positional `add_column` copies, and the
  first row is selected for display before saving.
- **`scripts/run_prompt_creation2.py`** builds one prompt per row from a fixed
  template. It replaces the six bracketed placeholders `[speaker]` …
  `[pitch]`, in order, with the row's keyword values. It caches the prompts, sends
  each one to a chat-completion server, classifies the HTTP outcome (non-retryable
  statuses and `null` replies give a placeholder caption, anything else raises), strips the caption, and
  saves the dataset with an `annotation` column under `<name>+annotated`.

The modules follow that structure:

| module | file | what it holds |
|---|---|---|
| `Wrappers` | wrappers.dfy | `Option`, `Result` |
| `Tables` | tables.dfy | columnar datasets and split collections; `add_column`, `select`, `rename_columns` |
| `ExecutionPlan` | plan.dfy | command-line settings and the per-pass plan |
| `ColumnMerge` | merge.dfy | the per-split merge of the pass results |
| `Enrichment` | pipeline.dfy | main.py from the loaded dataset to the displayed result |
| `Text` | text.dfy | Python's `str.replace`, `str.count`, `str.strip`, `str.join` |
| `Placeholders` | placeholders.dfy | templates as literal runs and placeholders; what chained replacements do to them |
| `PromptTemplate` | template.dfy | the script's template text |
| `PromptAssembly` | prompt.dfy | `prepare_prompt` |
| `AnnotationClient` | client.dfy | `_send` and `infer` |
| `AnnotationScript` | script.dfy | file names, the annotation loop, and `main` of the script |

The feature extractors, the server and the prompt cache are parameters. An extractor
is a function from a plan and a split to a split. The server is `answer(i)`, the
outcome of the i-th request. The cache is the prompt column read from the cache
file, when there is one.

The prompt proofs rest on one observation. A template is a list of literal runs free
of `[` and of placeholders. Each `str.replace` of a placeholder then matches exactly at
the slots for that field, never inside literal text or inside another field's
placeholder. So a chain of replacements on the rendered text equals the rendering of
the filled list. `Placeholders.ReplaceSlot` and `Placeholders.ReplaceEachSlot` prove
this for any such template. The facts about the script's own template are instances.

## Model

| member | source | states |
|---|---|---|
| Tables.AddColumn | main.py:120-133 | `add_column` succeeds exactly when the name is new and the column has one value per row; the new column goes last and every existing column is kept; otherwise it raises DuplicateColumn or LengthMismatch |
| Tables.SelectFirst | main.py:45 | `select(range(n))` keeps the first n rows of every column and the column order; it raises IndexError when the dataset has rows but fewer than n, and hands an empty dataset back unchanged |
| Tables.SetColumn | scripts/run_prompt_creation2.py:101 | writing a field in every row replaces that column (or appends it when new) and leaves the rows and other columns alone |
| Tables.RenameColumns | main.py:50 | `rename_columns` succeeds exactly when every source column exists and the renamed dataset has distinct column names (distinct new names, none equal to a column left untouched); each column keeps its values under its new name |
| ExecutionPlan.PassPlan | main.py:47-114 | every pass reads the audio column main.py computed (`audio` after a rename, the user's otherwise) and only the rate pass gets the text column, likewise chosen; the rate pass is unranked, per-example with the writer batch size, on the CPU pool; the others are batched and ranked exactly when devices exist; only pitch gets the penn batch size, the user's setting |
| ExecutionPlan.DevicePassPool | main.py:72-73 | each device-capable pass uses its own per-device worker setting with devices, and the CPU count without |
| ExecutionPlan.RatePlanIgnoresDevices | main.py:99-105 | the speaking-rate plan is the same whatever the device count |
| ExecutionPlan.CpuPlansShareOnePool | main.py:60 | without devices all four passes get the same unranked pool of `cpu_num_workers` processes |
| ExecutionPlan.PlansAreIndependent | main.py:60-86 | a pass's plan does not change when another pass's per-device worker setting changes |
| ColumnMerge.CopyColumns | main.py:120-125 | a run of copies goes through exactly when every source column exists, row counts agree and no target name exists yet; the result keeps the base and holds each copy |
| ColumnMerge.MergeSplit | main.py:117-133 | a split's merge fails without a rate result, and otherwise succeeds exactly when the split is mergeable; a merged split is the pitch base with the SNR, rate and (when run) quality columns copied on |
| ColumnMerge.MergeAll | main.py:119-125 | merging the splits in order succeeds exactly when every split merges, and maps each split name to its merge |
| ColumnMerge.DerivedNamesSpelled | main.py:120-125 | the appended names are snr, c50, speech_duration if present, speaking_rate, phonemes, then stoi, si-sdr, pesq with the quality pass |
| ColumnMerge.DerivedNamesGated | main.py:121-125 | quality names appear exactly when the quality pass ran, and speech_duration exactly when the SNR result has it |
| ColumnMerge.MergedColumnOrder | main.py:128-133 | a merged split lists the base's columns first, then the derived ones in main.py's order, with the base's rows |
| ColumnMerge.MergedColumnValues | main.py:125 | each derived column holds the producing column's values; `si-sdr` holds squim's `sdr` |
| ColumnMerge.QualityColumnsGated | main.py:132-133 | without the quality pass no quality column is appended, with it all three are |
| Enrichment.DebugSelect | main.py:43-45 | in debug mode a bare dataset keeps its first 100 rows, an empty one is kept as it is, one with 1 to 99 rows raises IndexError, and a split collection raises because it has no `select` |
| Enrichment.RenameMapping | main.py:50 | the mapping sends the text column to `text` and the audio column to `audio`; when they are the same column the later entry wins |
| Enrichment.RenameStep | main.py:49-50 | without the flag nothing changes; with it, every split is renamed and the run fails exactly when some split's rename fails |
| Enrichment.RenameTouchesOnlyTwo | main.py:50 | renaming changes the text column to `text`, the audio column to `audio`, and no other column name |
| Enrichment.RenamedColumnsPresent | main.py:47-50 | after a rename `text` exists; `audio` exists exactly when the two settings differ or an untouched `audio` column was there already |
| Enrichment.RatePassRuns | main.py:95-115 | the rate pass runs exactly when the first split's SNR result has `speech_duration`; an empty collection raises |
| Enrichment.RateGateReadsFirstSplitOnly | main.py:97-98 | collections agreeing on the columns of their first split agree on the gate |
| Enrichment.RateGateBareIsSingle | main.py:106-115 | a bare dataset is gated exactly like the one-split collection holding it |
| Enrichment.Passes | main.py:53-115 | the passes fail exactly when some split lacks the audio column main.py computed (the cast and the column removal raise, even on an empty split), a split collection is empty, a non-empty input meets a quality (when asked for), pitch or SNR pool of fewer than one process, or the rate gate opens on a CPU pool of fewer than one; a refused quality pool is reported before the missing column, the missing column before the other pools; otherwise quality runs exactly with its flag, pitch and SNR run on every split under their own plans, and the rate result exists exactly when the gate opens |
| Enrichment.MissingAudioColumnFails | main.py:53-67 | a prepared split without the audio column stops the run, with that column's name unless the quality pass's pool was refused first, before any extractor runs |
| Enrichment.CpuPoolRefused | main.py:54-86 | without devices a `cpu_num_workers` below one stops a non-empty run at the first `map` with that count, unless the pitch pass's cast finds the audio column missing first |
| Enrichment.SameColumnRenameFails | main.py:47-67 | renaming with one column named as both audio and text leaves no `audio` column in a dataset that had none, so the run stops in the first pass, naming `audio` unless the quality pass's pool was refused first |
| Enrichment.MergeLoaded | main.py:117-133 | merging keeps the kind and split order and succeeds exactly when every split merges; it always fails without a rate result |
| Enrichment.MissingSpeechDurationFails | main.py:98-123 | when the first split's SNR result lacks `speech_duration` the rate result is never bound and the run fails |
| Enrichment.EnrichKeepsRows | main.py:120-131 | with a row-keeping pitch extractor every output split has its input rows, or 100 of a non-empty split in debug mode |
| Enrichment.PreparedRows | main.py:43-50 | selection and rename keep each split's rows, or the first 100 of a non-empty split in debug mode |
| Enrichment.MergedSplitColumns | main.py:117-133 | in each merged split the base columns come first; quality columns follow exactly with the quality result; speech_duration exactly when that split's SNR result has it |
| Enrichment.QualityOnlyWithFlag | main.py:124-133 | end to end: no output split gains a quality column without the flag, every split gains all three with it |
| Enrichment.Showcase | main.py:137-138 | displaying the first row raises for a split collection (no `select`) and for an empty dataset (row 0 of the unchanged empty selection), and otherwise yields one row with the dataset's columns |
| Enrichment.SplitCollectionsNeverSaved | main.py:137-141 | a split collection never reaches the save: even when enrichment succeeds, the row display raises |
| Enrichment.BareSavedIffNonEmpty | main.py:137-141 | a bare dataset reaches the save exactly when its enriched result has a row |
| Enrichment.ShowcaseFirstSplit | main.py:137-138 | the corrected display succeeds exactly when the first split (the dataset itself, when bare) has a row, and shows one row with that split's columns |
| Enrichment.FixedSavesSplitCollections | main.py:137-141 | with the corrected display a split collection reaches the save exactly when its first split has a row, and a bare dataset exactly as before |
| Text.ReplaceLength | scripts/run_prompt_creation2.py:39 | each replaced occurrence trades the pattern's length for the replacement's |
| Text.ReplaceIsIdentityIff | scripts/run_prompt_creation2.py:39 | `replace` leaves a string unchanged exactly when the pattern does not occur or is its own replacement |
| Text.CountPositiveIffContains | scripts/run_prompt_creation2.py:110 | `count` is positive exactly when the pattern occurs |
| Text.Strip | scripts/run_prompt_creation2.py:77 | the stripped text is the input with a run of whitespace cut from each end and none left at either end |
| Text.StripUnique | scripts/run_prompt_creation2.py:77 | there is only one such cut, so any text meeting that description is the stripped text |
| Text.StripIdempotent | scripts/run_prompt_creation2.py:77 | stripping twice is stripping once |
| Placeholders.ReplaceSlot | scripts/run_prompt_creation2.py:39 | replacing a placeholder in a template's text is filling that field's slots in the template |
| Placeholders.CountSlot | scripts/run_prompt_creation2.py:7-30 | the placeholder of a field occurs in the text once per slot for that field |
| Placeholders.ReplaceEachSlot | scripts/run_prompt_creation2.py:39 | a chain of replacements on a template's text is the text of the template filled in the same order |
| Placeholders.FollowDistinct | scripts/run_prompt_creation2.py:39 | with distinct fields and literal values, each field's slot ends up holding that field's value |
| Placeholders.FillRenamed | scripts/run_prompt_creation2.py:39 | when the first value is the last field's placeholder, the last value ends up in the first position too |
| PromptTemplate.RenderFrame | scripts/run_prompt_creation2.py:7-30 | the template reads as the preamble, then `For the keywords: '`, the six entries joined by `', '`, then the closing words |
| PromptTemplate.SlotNamesDistinct | scripts/run_prompt_creation2.py:29 | the six placeholders name six different fields |
| PromptAssembly.Lookup | scripts/run_prompt_creation2.py:33-38 | the six lookups succeed exactly when every key exists, yield the row's values in order, and fail with the first missing key |
| PromptAssembly.PreparePrompt | scripts/run_prompt_creation2.py:32-41 | a row gets a prompt exactly when its six keyword fields are present strings; the prompt is a string and no other field changes; a failure names a missing or non-string keyword field |
| PromptAssembly.PreparePromptAsWritten | scripts/run_prompt_creation2.py:32-41 | the function as written never returns: it raises UnboundLocalError exactly when all six lookups succeed, KeyError otherwise |
| PromptAssembly.AsWrittenRejectsEveryRow | scripts/run_prompt_creation2.py:39 | every row the corrected function prompts, the function as written rejects |
| PromptAssembly.PrepareFillsTemplate | scripts/run_prompt_creation2.py:32-41 | for values without `[` the prompt is the template's preamble followed by the last line listing the six values, quoted, in order |
| PromptAssembly.ChainFillsLastLine | scripts/run_prompt_creation2.py:39 | the chain puts each value in its own place and leaves every other character of the template alone |
| PromptAssembly.NoPlaceholderLeft | scripts/run_prompt_creation2.py:39 | after the chain, with values free of `[`, no placeholder remains |
| PromptAssembly.ChainRenamesFrame | scripts/run_prompt_creation2.py:39 | a speaker value spelling `[pitch]` is itself replaced by the later pitch replacement |
| PromptAssembly.EachPlaceholderOnce | scripts/run_prompt_creation2.py:29 | each of the six placeholders occurs exactly once in the template |
| AnnotationClient.Send | scripts/run_prompt_creation2.py:43-62 | a reply is delivered exactly for a non-error status with a JSON body; an HTTP error is dropped exactly when non-retryable; everything else raises, including a URL without `http(s)://`: InvalidSchema when it has a colon, MissingSchema when it has none |
| AnnotationClient.HttpErrorsClassified | scripts/run_prompt_creation2.py:47-56 | every HTTP error status is dropped if non-retryable and re-raised otherwise |
| AnnotationClient.AsWrittenNeverDelivers | scripts/run_prompt_creation2.py:46-48 | with the imports a healthy reply is delivered, where the code as written raises |
| AnnotationClient.Content | scripts/run_prompt_creation2.py:77 | the caption is read exactly when the reply has a first choice whose message's content is a string; otherwise the read raises |
| AnnotationClient.ContentOfChatReply | scripts/run_prompt_creation2.py:77 | reading the content back out of a chat reply gives the text it carries |
| AnnotationClient.Infer | scripts/run_prompt_creation2.py:64-78 | a dropped request and a reply whose JSON body is `null` give `<placeholder>`, a raised one propagates, any other delivered reply gives its stripped content or raises when the content path is missing |
| AnnotationClient.NullBodyIsPlaceholder | scripts/run_prompt_creation2.py:73-75 | a `null` body with any success status yields the placeholder, like a refusal |
| AnnotationClient.PlaceholderIffNoReplyOrEcho | scripts/run_prompt_creation2.py:64-78 | `infer` returns the placeholder exactly for a request with no reply or a reply whose stripped content is the placeholder text |
| AnnotationClient.InferredIsStripped | scripts/run_prompt_creation2.py:74-77 | every caption `infer` returns is already stripped |
| AnnotationClient.ServerUrlAlwaysRaises | scripts/run_prompt_creation2.py:73 | with the script's address every call raises InvalidSchema, whatever the server would answer |
| AnnotationScript.LastSegment | scripts/run_prompt_creation2.py:81 | the short name is a `/`-free suffix of the name that is all of it or follows a `/` |
| AnnotationScript.LastSegmentUnique | scripts/run_prompt_creation2.py:81 | that description determines the short name: it is `split("/")[-1]` |
| AnnotationScript.PathsDiffer | scripts/run_prompt_creation2.py:82-113 | the output path differs from both the cache path and the on-disk dataset path |
| AnnotationScript.OutputPathsCollide | scripts/run_prompt_creation2.py:81-113 | two dataset names save to the same output exactly when they end in the same segment |
| AnnotationScript.Annotate | scripts/run_prompt_creation2.py:105-109 | the annotation run succeeds exactly when every request does, and then has one caption per prompt, in order |
| AnnotationScript.AnnotateStopsAtFirstRaise | scripts/run_prompt_creation2.py:105-109 | the run fails with the exception of the first request that raises |
| AnnotationScript.AnnotateAll | scripts/run_prompt_creation2.py:105-110 | the loop computes the same captions as the run, or its first exception, and counts the placeholders among them |
| AnnotationScript.CountOf | scripts/run_prompt_creation2.py:110 | the one-pass count equals the number of occurrences |
| AnnotationScript.FailsCountsRefusals | scripts/run_prompt_creation2.py:105-110 | the failure count is the number of requests with no reply (a non-retryable status or a `null` body) plus any caption that reads `<placeholder>` |
| AnnotationScript.Prompts | scripts/run_prompt_creation2.py:101-102 | prompts exist exactly when every row can be prepared, one per row, each being that row's prepared prompt |
| AnnotationScript.MapPreparesEachRow | scripts/run_prompt_creation2.py:101 | writing the prompt column gives, row by row, exactly what `prepare_prompt` returns |
| AnnotationScript.Subset | scripts/run_prompt_creation2.py:93-94 | `--test` keeps a prefix of the rows, 100 of them or the whole of an empty dataset, with the same columns; a dataset of 1 to 99 rows raises IndexError; without the flag the dataset is unchanged |
| AnnotationScript.Finish | scripts/run_prompt_creation2.py:105-113 | the captions become a new last column when all requests succeed and their number matches the rows; otherwise the request's exception, DuplicateColumn or LengthMismatch |
| AnnotationScript.RunScript | scripts/run_prompt_creation2.py:80-113 | a successful run saves to `<short>+annotated`, with 100 rows under `--test` unless the dataset is empty (IndexError with 1 to 99), writes the cache exactly when none was read, and annotates the cached prompts when one was |
| AnnotationScript.RunCaptionsEachPrompt | scripts/run_prompt_creation2.py:105-112 | the i-th saved caption is what `infer` made of the i-th request, and the printed count is refusals plus placeholder look-alikes |
| AnnotationScript.CachedRunAddsOnlyCaptions | scripts/run_prompt_creation2.py:96-98 | with the cache, the saved dataset has the loaded columns plus `annotation`, and no prompt column |
| AnnotationScript.UncachedRunKeepsPrompts | scripts/run_prompt_creation2.py:99-103 | without the cache, the saved dataset also holds the prompt column, and the cache receives exactly the annotated prompts |
| AnnotationScript.StaleCacheFailsLate | scripts/run_prompt_creation2.py:96-112 | a cache of the wrong length is noticed only by `add_column`, after every request was sent |
| AnnotationScript.EmptyUncachedRunFails | scripts/run_prompt_creation2.py:101-102 | without a cache, an empty dataset with no prompt column raises KeyError reading the prompts, because `map` returns it without calling `prepare_prompt` |
| AnnotationScript.RerunFromCache | scripts/run_prompt_creation2.py:96-113 | rerunning with the cache a first run wrote sends the same prompts and, given the same server answers, saves the same captions and count under the same name |

## Left out

- Loading (main.py:33-42; scripts/run_prompt_creation2.py:83-92): both programs start from a loaded dataset. The script's `ds['train']` fallback is not modelled; `RunScript` receives the split it would end up with.
- Saving, pushing and the cache file (main.py:139-147; scripts/run_prompt_creation2.py:97, 103, 113): file-system and hub I/O. A run records what it would write and where; the cache read is an `Option` input.
- The feature extractors, resampling to 16 kHz (main.py:68), `remove_columns` and `fn_kwargs`: the extractors are opaque parameters, so what they compute, and which columns they drop, is whatever the parameter returns.
- Multiprocessing (`set_start_method`, `num_proc`, ranks): only the pool each pass asks for is modelled, and a pool below one process is refused. In main.py's passes no row can fail in the model, so worker order does not arise there. For the script's `map(prepare_prompt, num_proc=8)` (`AnnotationScript.Prompts`), the model reports the first failing row in row order, while the library may surface another worker's error first.
- Enrichment.Passes: an extractor that raises (a worker crash, an undecodable audio file, a rate pass without the text column) is not modelled. The extractors are total functions, so the failure condition covers only the library's own checks: the process count, the audio column and the rate gate.
- The device count (`torch.cuda.device_count()`) is a parameter.
- `map` on an empty split (main.py:55-115): the library returns the split, less the removed audio column, without calling the extractor. That result is one of the outputs the opaque extractor parameter may return, so the model covers it without a separate case.
- Command-line parsing (main.py:10-31; scripts/run_prompt_creation2.py:115-122): `Args` carries the parsed settings, and `DefaultArgs` the defaults. The script's `model` argument only enters the request payload.
- The request payload (scripts/run_prompt_creation2.py:65-71, 107): model name, messages, `max_tokens` 5000, `temperature` 0, `top_p` 1. The server's reply is a parameter, so what it makes of the payload is not modelled. The message is sent under the key `messages` where the chat format expects `content`, so a strict server may refuse it; that refusal is one of the replies the model already covers.
- Printing, logging and progress bars: no effect on results.
- JSON numbers are integers; no floating-point values are read.
- AnnotationClient.Send: the scheme test is case-sensitive, while the HTTP library lower-cases the URL first, so `HTTP://…` is rejected in the model but accepted by the library. A URL that starts with `http` but lacks `://` is parsed by the library and may raise another URL error; the model reports it as InvalidSchema or MissingSchema by its colon.
- AnnotationClient.Send: connection failures, timeouts and undecodable bodies are all the one `RequestFailed` exception, and no status is recorded for them.
- PromptAssembly.PrepareFillsTemplate: stated for keyword values without `[`. For other values only `ChainRenamesFrame`'s case is proved, a first value that spells the last placeholder. It is proved for any preamble and distinct field names, and is not restated for the script's own template.
- PromptAssembly.NoPlaceholderLeft: stated for values without `[`; a value that spells a later placeholder is itself replaced, as `ChainRenamesFrame` shows.
- PromptAssembly.Texts: non-string fields are one kind of value (`NonStr`). What `str.replace` does with an object that is a `str` subclass is not modelled.
- Tables.RenameColumns: a new name equal to the name of a column left untouched is rejected, as a dataset here must have distinct column names, while the library's own check only asks that the new names be distinct from each other. The library's refusal of an empty new name is not modelled: main.py's new names are `audio` and `text`.

## Findings

| source | as written | input that shows it | evidently intended | confidence | as-written member | corrected member |
|---|---|---|---|---|---|---|
| scripts/run_prompt_creation2.py:39 | `prompt` is assigned inside `prepare_prompt`, so it is a local name, and reading it on the right-hand side raises UnboundLocalError | any row with the six keyword fields, e.g. all six set to `"x"` | substitute into the module-level template | high (not executed) | PromptAssembly.PreparePromptAsWritten | PromptAssembly.PreparePrompt |
| scripts/run_prompt_creation2.py:46-62 | neither `requests` nor `logger` is imported, so `_send` raises NameError, and so does its `except` clause when matching | any request, e.g. a server answering 200 with a JSON body | post the request and classify the reply | high (not executed) | AnnotationClient.AsWrittenNeverDelivers | AnnotationClient.Send |
| scripts/run_prompt_creation2.py:73 | the server address `localhost:8000` has no scheme, so the HTTP library finds no connection adapter and raises InvalidSchema before sending | any prompt | an `http://` address of the local server | medium (not executed) | AnnotationClient.ServerUrlAlwaysRaises | AnnotationClient.Infer |
| main.py:137 | `dataset.select(range(1))` is called on whatever the enrichment produced, and a `DatasetDict` has no `select`, so a split collection raises AttributeError after all the passes and before the save | any split collection whose passes and merge go through, e.g. one `train` split with one row | display the first row of the first split, then save | high (not executed) | Enrichment.SplitCollectionsNeverSaved | Enrichment.FixedSavesSplitCollections |

In each row, the corrected member is what the rest of the model uses. `PreparePrompt`
takes the template as a parameter, and `AnnotationScript.RunScript` takes the
server address as a parameter. main.py's run up to the save is modelled both ways:
`Enrichment.Complete` displays the row as written and `Enrichment.CompleteFixed`
displays the first split's row. The corrected behaviour is stated by:

- `PromptAssembly.PrepareFillsTemplate` for the first row;
- `AnnotationClient.Send` and `AnnotationClient.HttpErrorsClassified` for the second,
  where `AnnotationClient.AsWrittenNeverDelivers` sets the two versions side by side;
- `AnnotationClient.Infer` with an address that has a scheme, for the third;
- `Enrichment.FixedSavesSplitCollections` for the fourth, through
  `Enrichment.ShowcaseFirstSplit`.

=== FILE: client.dfy ===
/** `_send` and `infer` of the annotation script: one chat-completion request, the
    classification of what comes back, and the caption read out of the reply. */
module AnnotationClient {
  import opened Wrappers
  import opened Text

  /** A JSON value, as far as the reply is read. */
  datatype Json =
    | JNull
    | JBool(b: bool)
    | JNum(n: int)
    | JStr(s: string)
    | JArr(items: seq<Json>)
    | JObj(fields: map<string, Json>)

  /** What the server does with one POST: it answers with a status and a body (absent
      when the body is not JSON), or the connection fails. */
  datatype Outcome = Response(status: int, body: Option<Json>) | ConnectionFailed

  /** What `_send` and `infer` can raise. */
  datatype SendError =
    | HttpError(status: int)       // a retryable HTTP error, re-raised
    | RequestFailed                // any other `RequestException`: connection, bad JSON
    | InvalidSchema(url: string)   // a URL with a colon but no `http(s)://`: no connection adapter
    | MissingSchema(url: string)   // a URL with no colon at all: no scheme to parse
    | NameUndefined(name: string)  // NameError: the module was never imported
    | MalformedResponse            // KeyError, IndexError, TypeError or AttributeError reading the reply

  /** What `_send` returns: the decoded reply, `None` for a non-retryable status, or an exception. */
  datatype Sent = Delivered(json: Json) | Dropped(status: int) | Raised(error: SendError)

  /** The statuses `_send` gives up on without raising. */
  const NonRetryable: set<int> := {400, 401, 403, 404, 405, 409, 413, 422}

  /** The statuses `raise_for_status` raises on: client and server errors. */
  predicate IsHttpError(status: int) {
    400 <= status < 600
  }

  /** Whether the HTTP library has a connection adapter for the URL. */
  predicate HasHttpScheme(url: string) {
    "http://" <= url || "https://" <= url
  }

  /** What the HTTP library raises for a URL it has no adapter for: a URL with a colon is
      taken to carry some other scheme, one without a colon has none. */
  function SchemeError(url: string): (e: SendError)
    requires !HasHttpScheme(url)
    ensures e.InvalidSchema? || e.MissingSchema?
    ensures e.InvalidSchema? <==> ':' in url
    ensures e.url == url
  {
    if ':' in url then InvalidSchema(url) else MissingSchema(url)
  }

  /** The address `infer` posts to. */
  const ServerUrl: string := "localhost:8000"

  /** `_send` with the HTTP library and the logger it uses in scope. */
  function Send(url: string, reply: Outcome): (r: Sent)
    ensures !HasHttpScheme(url) ==> r == Raised(SchemeError(url))
    ensures r.Dropped? <==> HasHttpScheme(url) && reply.Response? && IsHttpError(reply.status) && reply.status in NonRetryable
    ensures r.Dropped? ==> r.status == reply.status
    ensures r.Delivered? <==> HasHttpScheme(url) && reply.Response? && !IsHttpError(reply.status) && reply.body.Some?
    ensures r.Delivered? ==> r.json == reply.body.value
  {
    if !HasHttpScheme(url) then
      Raised(SchemeError(url))
    else
      match reply
      case ConnectionFailed => Raised(RequestFailed)
      case Response(status, body) =>
        if IsHttpError(status) then
          if status in NonRetryable then Dropped(status) else Raised(HttpError(status))
        else if body.None? then
          Raised(RequestFailed)
        else
          Delivered(body.value)
  }

  /** `_send` as written: neither `requests` nor `logger` is imported, so the first
      statement of the `try` raises NameError, and so does evaluating the first `except`
      clause that tries to match it. */
  function SendAsWritten(url: string, reply: Outcome): (r: Sent)
    ensures r == Raised(NameUndefined("requests"))
  {
    Raised(NameUndefined("requests"))
  }

  /** Every HTTP error status is either dropped or raised, never delivered; the
      non-retryable ones are exactly those dropped. */
  lemma HttpErrorsClassified(url: string, status: int, body: Option<Json>)
    requires HasHttpScheme(url) && IsHttpError(status)
    ensures status in NonRetryable ==> Send(url, Response(status, body)) == Dropped(status)
    ensures status !in NonRetryable ==> Send(url, Response(status, body)) == Raised(HttpError(status))
  {
  }

  /** The non-retryable statuses are all client errors: every server error is raised. */
  lemma NonRetryableAreClientErrors()
    ensures forall s | s in NonRetryable :: IsHttpError(s) && s < 500
  {
  }

  /** The corrected `_send` delivers what a healthy server answers, where the function as
      written raises on every call. */
  lemma AsWrittenNeverDelivers(body: Json)
    ensures Send("http://localhost:8000", Response(200, Some(body))) == Delivered(body)
    ensures SendAsWritten("http://localhost:8000", Response(200, Some(body))).Raised?
  {
  }

  /** `reply['choices'][0]['message']['content']`, which must be a string for `.strip()`. */
  function Content(reply: Json): (r: Result<string, SendError>)
    ensures r.Success? <==>
              && reply.JObj? && "choices" in reply.fields
              && reply.fields["choices"].JArr? && |reply.fields["choices"].items| > 0
              && reply.fields["choices"].items[0].JObj? && "message" in reply.fields["choices"].items[0].fields
              && reply.fields["choices"].items[0].fields["message"].JObj?
              && "content" in reply.fields["choices"].items[0].fields["message"].fields
              && reply.fields["choices"].items[0].fields["message"].fields["content"].JStr?
    ensures r.Failure? ==> r.error == MalformedResponse
  {
    if !reply.JObj? || "choices" !in reply.fields then Failure(MalformedResponse)
    else
      var choices := reply.fields["choices"];
      if !choices.JArr? || |choices.items| == 0 then Failure(MalformedResponse)
      else
        var first := choices.items[0];
        if !first.JObj? || "message" !in first.fields then Failure(MalformedResponse)
        else
          var message := first.fields["message"];
          if !message.JObj? || "content" !in message.fields then Failure(MalformedResponse)
          else
            var content := message.fields["content"];
            if !content.JStr? then Failure(MalformedResponse) else Success(content.s)
  }

  /** A reply in the chat-completion shape with `text` as the first choice's content. */
  function ChatReply(text: string): Json {
    JObj(map["choices" := JArr([JObj(map["message" := JObj(map["content" := JStr(text)])])])])
  }

  /** Reading the content back out of a chat-completion reply gives the text it carries. */
  lemma ContentOfChatReply(text: string)
    ensures Content(ChatReply(text)) == Success(text)
  {
  }

  /** What `infer` returns for a request the server did not accept. */
  const Placeholder: string := "<placeholder>"

  /** `infer`: the placeholder when `_send` returns `None` (a non-retryable status, or a
      reply whose JSON body is `null`), otherwise the reply's content with surrounding
      whitespace removed; exceptions propagate. */
  function Infer(url: string, reply: Outcome): (r: Result<string, SendError>)
    ensures Send(url, reply).Dropped? ==> r == Success(Placeholder)
    ensures Send(url, reply) == Delivered(JNull) ==> r == Success(Placeholder)
    ensures Send(url, reply).Raised? ==> r == Failure(Send(url, reply).error)
    ensures Send(url, reply).Delivered? && Send(url, reply).json != JNull ==>
              (Content(Send(url, reply).json).Success? <==> r.Success?)
    ensures Send(url, reply).Delivered? && Send(url, reply).json != JNull && r.Success? ==>
              IsStripOf(r.value, Content(Send(url, reply).json).value)
  {
    match Send(url, reply)
    case Dropped(_) => Success(Placeholder)
    case Raised(e) => Failure(e)
    case Delivered(json) =>
      if json == JNull then
        Success(Placeholder)
      else
        var content :- Content(json);
        Success(Strip(content))
  }

  /** A request `_send` returns nothing for: the server refused it with a non-retryable
      status, or accepted it with a `null` body. */
  predicate NoReply(url: string, reply: Outcome) {
    Send(url, reply).Dropped? || Send(url, reply) == Delivered(JNull)
  }

  /** `infer` returns the placeholder for exactly the requests with no reply, and for
      replies whose content strips down to the placeholder text; nothing else does. */
  lemma PlaceholderIffNoReplyOrEcho(url: string, reply: Outcome)
    ensures Infer(url, reply) == Success(Placeholder) <==>
              || NoReply(url, reply)
              || (Send(url, reply).Delivered? && Content(Send(url, reply).json).Success?
                  && Strip(Content(Send(url, reply).json).value) == Placeholder)
  {
  }

  /** A server that accepts the request but answers `null` yields the placeholder, like a
      refusal, whatever the success status. */
  lemma NullBodyIsPlaceholder(url: string, status: int)
    requires HasHttpScheme(url) && !IsHttpError(status)
    ensures Infer(url, Response(status, Some(JNull))) == Success(Placeholder)
  {
  }

  /** A caption `infer` returns has no surrounding whitespace left to strip. */
  lemma InferredIsStripped(url: string, reply: Outcome)
    requires Infer(url, reply).Success?
    ensures Strip(Infer(url, reply).value) == Infer(url, reply).value
  {
    var r := Infer(url, reply);
    if Send(url, reply).Delivered? && Send(url, reply).json != JNull {
      StripIdempotent(Content(Send(url, reply).json).value);
    } else {
      assert r.value == Placeholder;
      StripAt(Placeholder, 0, |Placeholder|);
    }
  }

  /** The address `infer` posts to has no `http(s)://`, and its colon makes `localhost`
      read as an unknown scheme, so every call raises before any request is sent,
      whatever the server would have answered. */
  lemma ServerUrlAlwaysRaises(reply: Outcome)
    ensures Infer(ServerUrl, reply) == Failure(InvalidSchema(ServerUrl))
  {
    assert ServerUrl[0] == 'l';
    assert ServerUrl[9] == ':';
  }
}

=== FILE: merge.dfy ===
/** The per-split column merge of main.py: the pitch result is the base, and the
    derived columns of the SNR, speaking-rate and quality results are appended to it
    by positional copy. */
module ColumnMerge {
  import opened Wrappers
  import opened Tables

  /** What aborts the pipeline: a column operation raising, a split missing from a
      result (KeyError), the rate result never bound (NameError), an empty split
      collection where a first split is asked for (StopIteration), a row selection
      asked of a split collection, which has no `select` (AttributeError), a pass
      asked to cast or drop an audio column a split does not have (ValueError), or a
      pass asked to run on fewer than one process (ValueError). */
  datatype Error =
    | TableFault(fault: TableError)
    | MissingSplit(split: string)
    | RateResultUnbound
    | NoFirstSplit
    | SplitsHaveNoSelect
    | NoAudioColumn(name: string)
    | NumProcNotPositive(numProc: int)

  const SpeechDuration: string := "speech_duration"

  /** A column copy: the name it gets in the merged split, and the column of the
      producing result it is taken from. */
  type Copy = (string, string)

  function Targets(pairs: seq<Copy>): (r: seq<string>)
    ensures |r| == |pairs| && forall i | 0 <= i < |pairs| :: r[i] == pairs[i].0
  {
    seq(|pairs|, i requires 0 <= i < |pairs| => pairs[i].0)
  }

  /** The copies taken from the SNR result; `speech_duration` only when that result has it. */
  function SnrCopies(hasSpeechDuration: bool): seq<Copy> {
    [("snr", "snr"), ("c50", "c50")] + (if hasSpeechDuration then [(SpeechDuration, SpeechDuration)] else [])
  }

  /** The copies taken from the speaking-rate result. */
  const RateCopies: seq<Copy> := [("speaking_rate", "speaking_rate"), ("phonemes", "phonemes")]

  /** The copies taken from the quality result; squim's `sdr` is stored as `si-sdr`. */
  const QualityCopies: seq<Copy> := [("stoi", "stoi"), ("si-sdr", "sdr"), ("pesq", "pesq")]

  /** The names appended to the pitch result, in order. */
  function DerivedNames(hasSpeechDuration: bool, withQuality: bool): seq<string> {
    Targets(SnrCopies(hasSpeechDuration)) + Targets(RateCopies) + (if withQuality then Targets(QualityCopies) else [])
  }

  /** The quality columns. */
  const QualityNames: set<string> := {"stoi", "si-sdr", "pesq"}

  /** A split of a result, or the KeyError the lookup raises. */
  function SplitOf<V>(s: SplitSet<V>, split: string): (r: Result<Dataset<V>, Error>)
    ensures r.Success? <==> split in s.tables
    ensures r.Success? ==> r.value == s.tables[split]
  {
    if split in s.tables then Success(s.tables[split]) else Failure(MissingSplit(split))
  }

  /** `to.add_column(name, source[column])`. */
  function CopyColumn<V>(to: Dataset<V>, name: string, source: Dataset<V>, column: string): (r: Result<Dataset<V>, Error>)
    ensures r.Success? <==> column in source.names && name !in to.names && source.rows == to.rows
    ensures r.Success? ==>
              && r.value.names == to.names + [name]
              && r.value.rows == to.rows
              && name in r.value.columns && column in source.columns
              && r.value.columns[name] == source.columns[column]
              && forall c | c in to.columns :: c in r.value.columns && r.value.columns[c] == to.columns[c]
  {
    var values :- Column(source, column).MapFailure(e => TableFault(e));
    AddColumn(to, name, values).MapFailure(e => TableFault(e))
  }

  /** Every copy in `pairs` holds in `m`: its column equals the source column, index for index. */
  ghost predicate Copied<V>(m: Table<V>, source: Table<V>, pairs: seq<Copy>) {
    forall i | 0 <= i < |pairs| :: CopyHolds(m, source, pairs[i])
  }

  /** Column `c.0` of `m` equals column `c.1` of `source`, index for index. */
  ghost predicate CopyHolds<V>(m: Table<V>, source: Table<V>, c: Copy) {
    c.0 in m.columns && c.1 in source.columns && m.columns[c.0] == source.columns[c.1]
  }

  /** `m` keeps every column of `base` unchanged, and the same rows. */
  ghost predicate Keeps<V>(m: Table<V>, base: Table<V>) {
    m.rows == base.rows && forall c | c in base.columns :: c in m.columns && m.columns[c] == base.columns[c]
  }

  /** When a run of copies from `source` onto `m` goes through. */
  ghost predicate CanCopy<V>(m: Table<V>, source: Table<V>, pairs: seq<Copy>) {
    && (forall i | 0 <= i < |pairs| :: pairs[i].1 in source.names)
    && (|pairs| > 0 ==> source.rows == m.rows)
    && Distinct(Targets(pairs))
    && (forall i | 0 <= i < |pairs| :: pairs[i].0 !in m.names)
  }

  /** A run of `add_column` calls copying `pairs` from `source` onto `m`, in order. */
  function CopyColumns<V>(m: Dataset<V>, source: Dataset<V>, pairs: seq<Copy>): (r: Result<Dataset<V>, Error>)
    decreases |pairs|
    ensures r.Success? <==> CanCopy(m, source, pairs)
    ensures r.Success? ==> Keeps(r.value, m) && r.value.names == m.names + Targets(pairs) && Copied(r.value, source, pairs)
  {
    if |pairs| == 0 then
      Success(m)
    else
      var first := CopyColumn(m, pairs[0].0, source, pairs[0].1);
      if first.Failure? then
        CanCopyHead(m, source, pairs);
        Failure(first.error)
      else
        var r := CopyColumns(first.value, source, pairs[1..]);
        CanCopyStep(m, first.value, source, pairs);
        if r.Success? then
          CopiedStep(r.value, first.value, m, source, pairs);
          r
        else
          r
  }

  lemma CanCopyHead<V>(m: Table<V>, source: Table<V>, pairs: seq<Copy>)
    requires |pairs| > 0
    ensures CanCopy(m, source, pairs) ==> pairs[0].1 in source.names && pairs[0].0 !in m.names && source.rows == m.rows
  {
  }

  lemma CanCopyStep<V>(m: Table<V>, m1: Table<V>, source: Table<V>, pairs: seq<Copy>)
    requires |pairs| > 0
    requires pairs[0].1 in source.names && pairs[0].0 !in m.names && source.rows == m.rows
    requires m1.names == m.names + [pairs[0].0] && m1.rows == m.rows
    ensures CanCopy(m, source, pairs) <==> CanCopy(m1, source, pairs[1..])
  {
    var x := pairs[0].0;
    var rest := pairs[1..];
    assert Targets(pairs) == [x] + Targets(rest);
    DistinctCons(x, Targets(rest));
    if CanCopy(m1, source, rest) {
      forall i | 0 <= i < |pairs| ensures pairs[i].1 in source.names && pairs[i].0 !in m.names {
        if i > 0 {
          assert pairs[i] == rest[i - 1];
        }
      }
      forall i | 0 <= i < |rest| ensures Targets(rest)[i] != x {
        assert rest[i].0 !in m1.names;
      }
    }
    if CanCopy(m, source, pairs) {
      forall i | 0 <= i < |rest| ensures rest[i].1 in source.names && rest[i].0 !in m1.names {
        assert rest[i] == pairs[i + 1];
        assert Targets(rest)[i] != x;
      }
    }
  }

  lemma CopiedStep<V>(r: Table<V>, m1: Table<V>, m: Table<V>, source: Table<V>, pairs: seq<Copy>)
    requires |pairs| > 0
    requires CopyHolds(m1, source, pairs[0])
    requires m1.names == m.names + [pairs[0].0] && r.names == m1.names + Targets(pairs[1..])
    requires Keeps(m1, m) && Keeps(r, m1) && Copied(r, source, pairs[1..])
    ensures Keeps(r, m) && Copied(r, source, pairs) && r.names == m.names + Targets(pairs)
  {
    KeepsTrans(m, m1, r);
    CopyKept(m1, r, source, pairs[0]);
    CopiedCons(r, source, pairs);
    TargetsCons(pairs);
    AppendAssoc(m.names, [pairs[0].0], Targets(pairs[1..]));
  }

  lemma CopiedCons<V>(m: Table<V>, source: Table<V>, pairs: seq<Copy>)
    requires |pairs| > 0 && CopyHolds(m, source, pairs[0]) && Copied(m, source, pairs[1..])
    ensures Copied(m, source, pairs)
  {
    forall i | 0 < i < |pairs| ensures CopyHolds(m, source, pairs[i]) {
      assert pairs[1..][i - 1] == pairs[i];
    }
  }

  lemma AppendAssoc<T>(a: seq<T>, b: seq<T>, c: seq<T>)
    ensures (a + b) + c == a + (b + c)
  {
  }

  lemma CopyKept<V>(m: Table<V>, m1: Table<V>, source: Table<V>, c: Copy)
    requires CopyHolds(m, source, c) && Keeps(m1, m)
    ensures CopyHolds(m1, source, c)
  {
  }

  lemma TargetsCons(pairs: seq<Copy>)
    requires |pairs| > 0
    ensures Targets(pairs) == [pairs[0].0] + Targets(pairs[1..])
  {
  }

  lemma KeepsTrans<V>(a: Table<V>, b: Table<V>, c: Table<V>)
    requires Keeps(b, a) && Keeps(c, b)
    ensures Keeps(c, a)
  {
  }

  lemma CopiedKept<V>(m: Table<V>, m1: Table<V>, source: Table<V>, pairs: seq<Copy>)
    requires Copied(m, source, pairs) && Keeps(m1, m)
    ensures Copied(m1, source, pairs)
  {
    forall i | 0 <= i < |pairs| ensures CopyHolds(m1, source, pairs[i]) {
      assert CopyHolds(m, source, pairs[i]);
    }
  }

  /** The merged split is the base with the derived columns appended, each a copy of
      the column of the result that produced it; nothing of the base changes. */
  ghost predicate MergedFrom<V>(m: Table<V>, pitch: Table<V>, snr: Table<V>, rate: Table<V>, quality: Option<Table<V>>) {
    && Keeps(m, pitch)
    && m.names == pitch.names + DerivedNames(SpeechDuration in snr.names, quality.Some?)
    && Copied(m, snr, SnrCopies(SpeechDuration in snr.names))
    && Copied(m, rate, RateCopies)
    && (quality.Some? ==> Copied(m, quality.value, QualityCopies))
  }

  /** When the merge of one split goes through: every copied column exists, every
      producing result has the base's row count, and no derived name is a base column. */
  ghost predicate Mergeable<V>(pitch: Table<V>, snr: Table<V>, rate: Table<V>, quality: Option<Table<V>>) {
    && "snr" in snr.names && "c50" in snr.names
    && "speaking_rate" in rate.names && "phonemes" in rate.names
    && (quality.Some? ==> "stoi" in quality.value.names && "sdr" in quality.value.names && "pesq" in quality.value.names)
    && snr.rows == pitch.rows && rate.rows == pitch.rows
    && (quality.Some? ==> quality.value.rows == pitch.rows)
    && forall n | n in DerivedNames(SpeechDuration in snr.names, quality.Some?) :: n !in pitch.names
  }

  /** The split `split` of an optional result. */
  function OptionalSplit<V>(s: Option<SplitSet<V>>, split: string): Option<Dataset<V>>
    requires s.Some? ==> split in s.value.tables
  {
    if s.Some? then Some(s.value.tables[split]) else None
  }

  /** Whether every result that the merge of `split` reads has that split. */
  predicate HasSplit<V>(split: string, pitch: SplitSet<V>, snr: SplitSet<V>, rate: Option<SplitSet<V>>, quality: Option<SplitSet<V>>) {
    && split in pitch.tables && split in snr.tables
    && rate.Some? && split in rate.value.tables
    && (quality.Some? ==> split in quality.value.tables)
  }

  /** The merge of one split, in the order main.py runs it (lines 120-125 for a split
      collection, 128-133 for a bare dataset). A `None` rate result is the unbound name;
      a `None` quality result means the quality pass was switched off. */
  function MergeSplit<V>(split: string, pitch: SplitSet<V>, snr: SplitSet<V>, rate: Option<SplitSet<V>>, quality: Option<SplitSet<V>>)
    : (r: Result<Dataset<V>, Error>)
    ensures rate.None? ==> r.Failure?
    ensures r.Success? ==> HasSplit(split, pitch, snr, rate, quality)
    ensures r.Success? ==>
              MergedFrom(r.value, pitch.tables[split], snr.tables[split], rate.value.tables[split], OptionalSplit(quality, split))
    ensures HasSplit(split, pitch, snr, rate, quality) ==>
              (r.Success? <==>
                 Mergeable(pitch.tables[split], snr.tables[split], rate.value.tables[split], OptionalSplit(quality, split)))
  {
    var p :- SplitOf(pitch, split);
    var s :- SplitOf(snr, split);
    var first := CopyColumns(p, s, SnrCopies(SpeechDuration in s.names));
    if first.Failure? then
      MergeableNeedsSnr(p, s, rate, quality, split);
      Failure(first.error)
    else
      MergeRest(p, s, first.value, split, rate, quality)
  }

  /** `m1` is the base `p` with the SNR columns of `s` appended. */
  ghost predicate SnrDone<V>(p: Table<V>, s: Table<V>, m1: Table<V>) {
    && CanCopy(p, s, SnrCopies(SpeechDuration in s.names))
    && Keeps(m1, p) && m1.names == p.names + Targets(SnrCopies(SpeechDuration in s.names))
    && Copied(m1, s, SnrCopies(SpeechDuration in s.names))
  }

  /** `m2` is `m1` with the rate columns of `r` appended. */
  ghost predicate RateDone<V>(m1: Table<V>, r: Table<V>, m2: Table<V>) {
    && CanCopy(m1, r, RateCopies)
    && Keeps(m2, m1) && m2.names == m1.names + Targets(RateCopies)
    && Copied(m2, r, RateCopies)
  }

  /** Whether the split the optional quality result must supply is there. */
  predicate QualityHas<V>(quality: Option<SplitSet<V>>, split: string) {
    quality.Some? ==> split in quality.value.tables
  }

  /** The rest of one split's merge, once the SNR columns are on: the rate result must
      be bound and have the split. */
  function MergeRest<V>(p: Dataset<V>, s: Dataset<V>, m1: Dataset<V>, split: string, rate: Option<SplitSet<V>>, quality: Option<SplitSet<V>>)
    : (r: Result<Dataset<V>, Error>)
    requires SnrDone(p, s, m1)
    ensures rate.None? ==> r.Failure?
    ensures r.Success? ==> rate.Some? && split in rate.value.tables && QualityHas(quality, split)
    ensures r.Success? ==> MergedFrom(r.value, p, s, rate.value.tables[split], OptionalSplit(quality, split))
    ensures rate.Some? && split in rate.value.tables && QualityHas(quality, split) ==>
              (r.Success? <==> Mergeable(p, s, rate.value.tables[split], OptionalSplit(quality, split)))
  {
    var rs :- if rate.Some? then Success(rate.value) else Failure(RateResultUnbound);
    var r :- SplitOf(rs, split);
    MergeRate(p, s, m1, r, split, quality)
  }

  /** The rate columns, then the quality columns. */
  function MergeRate<V>(p: Dataset<V>, s: Dataset<V>, m1: Dataset<V>, r: Dataset<V>, split: string, quality: Option<SplitSet<V>>)
    : (res: Result<Dataset<V>, Error>)
    requires SnrDone(p, s, m1)
    ensures res.Success? ==> QualityHas(quality, split) && MergedFrom(res.value, p, s, r, OptionalSplit(quality, split))
    ensures QualityHas(quality, split) ==> (res.Success? <==> Mergeable(p, s, r, OptionalSplit(quality, split)))
  {
    var second := CopyColumns(m1, r, RateCopies);
    if second.Failure? then
      MergeableNeedsRate(p, s, r, m1, OptionalQuality(quality, split));
      Failure(second.error)
    else
      MergeQuality(p, s, r, m1, second.value, split, quality)
  }

  /** The quality columns, when the quality pass ran. */
  function MergeQuality<V>(p: Table<V>, s: Table<V>, r: Table<V>, m1: Table<V>, m2: Dataset<V>, split: string, quality: Option<SplitSet<V>>)
    : (res: Result<Dataset<V>, Error>)
    requires SnrDone(p, s, m1) && RateDone(m1, r, m2)
    ensures res.Success? ==> QualityHas(quality, split) && MergedFrom(res.value, p, s, r, OptionalSplit(quality, split))
    ensures QualityHas(quality, split) ==> (res.Success? <==> Mergeable(p, s, r, OptionalSplit(quality, split)))
  {
    if quality.None? then
      MergeableSteps(p, s, r, None, m1, m2);
      Success(m2)
    else
      var q :- SplitOf(quality.value, split);
      var third := CopyColumns(m2, q, QualityCopies);
      QualityDone(p, s, r, q, m1, m2, third);
      third
  }

  lemma QualityDone<V>(p: Table<V>, s: Table<V>, r: Table<V>, q: Table<V>, m1: Table<V>, m2: Table<V>, third: Result<Dataset<V>, Error>)
    requires SnrDone(p, s, m1) && RateDone(m1, r, m2)
    requires third.Success? <==> CanCopy(m2, q, QualityCopies)
    requires third.Success? ==> Keeps(third.value, m2) && third.value.names == m2.names + Targets(QualityCopies)
    requires third.Success? ==> Copied(third.value, q, QualityCopies)
    ensures third.Success? <==> Mergeable(p, s, r, Some(q))
    ensures third.Success? ==> MergedFrom(third.value, p, s, r, Some(q))
  {
    MergeableSteps(p, s, r, Some(q), m1, m2);
    if third.Success? {
      MergedSteps(p, s, r, q, m1, m2, third.value);
    }
  }

  /** The split of the quality result when it has it; `None` otherwise. */
  function OptionalQuality<V>(quality: Option<SplitSet<V>>, split: string): (q: Option<Dataset<V>>)
    ensures QualityHas(quality, split) ==> q == OptionalSplit(quality, split)
  {
    if quality.Some? && split in quality.value.tables then Some(quality.value.tables[split]) else None
  }

  lemma MergeableNeedsSnr<V>(p: Table<V>, s: Table<V>, rate: Option<SplitSet<V>>, quality: Option<SplitSet<V>>, split: string)
    requires !CanCopy(p, s, SnrCopies(SpeechDuration in s.names))
    ensures rate.Some? && split in rate.value.tables && QualityHas(quality, split) ==>
              !Mergeable(p, s, rate.value.tables[split], OptionalSplit(quality, split))
  {
  }

  lemma MergeableNeedsRate<V>(p: Table<V>, s: Table<V>, r: Table<V>, m1: Table<V>, quality: Option<Table<V>>)
    requires Keeps(m1, p) && m1.names == p.names + Targets(SnrCopies(SpeechDuration in s.names))
    requires !CanCopy(m1, r, RateCopies)
    ensures !Mergeable(p, s, r, quality)
  {
    CopyTargets(SpeechDuration in s.names);
  }

  /** The derived names, spelled out. */
  lemma CopyTargets(hasSpeechDuration: bool)
    ensures Targets(SnrCopies(hasSpeechDuration)) == ["snr", "c50"] + (if hasSpeechDuration then [SpeechDuration] else [])
    ensures Targets(RateCopies) == ["speaking_rate", "phonemes"]
    ensures Targets(QualityCopies) == ["stoi", "si-sdr", "pesq"]
    ensures RateCopies[0].1 == "speaking_rate" && RateCopies[1].1 == "phonemes"
    ensures QualityCopies[0].1 == "stoi" && QualityCopies[1].1 == "sdr" && QualityCopies[2].1 == "pesq"
    ensures SnrCopies(hasSpeechDuration)[0].1 == "snr" && SnrCopies(hasSpeechDuration)[1].1 == "c50"
  {
  }

  lemma MergeableSteps<V>(p: Table<V>, s: Table<V>, r: Table<V>, quality: Option<Table<V>>, m1: Table<V>, m2: Table<V>)
    requires Keeps(m1, p) && m1.names == p.names + Targets(SnrCopies(SpeechDuration in s.names))
    requires CanCopy(p, s, SnrCopies(SpeechDuration in s.names))
    requires CanCopy(m1, r, RateCopies)
    requires Keeps(m2, m1) && m2.names == m1.names + Targets(RateCopies)
    ensures quality.None? ==> Mergeable(p, s, r, quality)
    ensures quality.Some? ==> (Mergeable(p, s, r, quality) <==> CanCopy(m2, quality.value, QualityCopies))
  {
    var sd := SpeechDuration in s.names;
    CopyTargets(sd);
    var snrCopies := SnrCopies(sd);
    assert snrCopies[0].1 in s.names && snrCopies[1].1 in s.names;
    assert RateCopies[0].1 in r.names && RateCopies[1].1 in r.names;
    forall i | 0 <= i < |snrCopies| ensures snrCopies[i].0 !in p.names {
    }
    forall i | 0 <= i < |RateCopies| ensures RateCopies[i].0 !in p.names {
      assert RateCopies[i].0 !in m1.names;
    }
    if quality.Some? {
      var q := quality.value;
      if CanCopy(m2, q, QualityCopies) {
        assert QualityCopies[0].1 in q.names && QualityCopies[1].1 in q.names && QualityCopies[2].1 in q.names;
        forall i | 0 <= i < |QualityCopies| ensures QualityCopies[i].0 !in p.names {
          assert QualityCopies[i].0 !in m2.names;
        }
      }
      if Mergeable(p, s, r, quality) {
        var d := DerivedNames(sd, true);
        assert d == Targets(snrCopies) + Targets(RateCopies) + Targets(QualityCopies);
        forall i | 0 <= i < |QualityCopies| ensures QualityCopies[i].0 !in m2.names {
          assert QualityCopies[i].0 in d;
        }
      }
    }
  }

  lemma MergedSteps<V>(p: Table<V>, s: Table<V>, r: Table<V>, q: Table<V>, m1: Table<V>, m2: Table<V>, m3: Table<V>)
    requires SnrDone(p, s, m1) && RateDone(m1, r, m2)
    requires Keeps(m3, m2) && m3.names == m2.names + Targets(QualityCopies) && Copied(m3, q, QualityCopies)
    ensures MergedFrom(m3, p, s, r, Some(q))
  {
    var sd := SpeechDuration in s.names;
    KeepsTrans(p, m1, m2);
    KeepsTrans(p, m2, m3);
    CopiedKept(m1, m2, s, SnrCopies(sd));
    CopiedKept(m2, m3, s, SnrCopies(sd));
    CopiedKept(m2, m3, r, RateCopies);
    assert m3.names == p.names + DerivedNames(sd, true);
  }

  /** The merge of every split in `names`, in that order; the first failing split aborts. */
  function MergeAll<V>(names: seq<string>, pitch: SplitSet<V>, snr: SplitSet<V>, rate: Option<SplitSet<V>>, quality: Option<SplitSet<V>>)
    : (r: Result<map<string, Dataset<V>>, Error>)
    ensures rate.None? && |names| > 0 ==> r.Failure?
    ensures r.Success? <==> forall n | n in names :: MergeSplit(n, pitch, snr, rate, quality).Success?
    ensures r.Success? ==>
              && r.value.Keys == (set n | n in names)
              && forall n | n in names :: MergeSplit(n, pitch, snr, rate, quality) == Success(r.value[n])
  {
    TryNames(names, n => MergeSplit(n, pitch, snr, rate, quality))
  }


  /** The derived names, spelled out in the order main.py appends them. */
  lemma DerivedNamesSpelled(hasSpeechDuration: bool, withQuality: bool)
    ensures DerivedNames(hasSpeechDuration, withQuality) ==
              ["snr", "c50"] + (if hasSpeechDuration then [SpeechDuration] else [])
              + ["speaking_rate", "phonemes"] + (if withQuality then ["stoi", "si-sdr", "pesq"] else [])
  {
    CopyTargets(hasSpeechDuration);
  }

  /** Quality names are derived exactly when the quality pass ran, and `speech_duration`
      exactly when the SNR result has it. */
  lemma DerivedNamesGated(hasSpeechDuration: bool, withQuality: bool)
    ensures !withQuality ==> forall n | n in DerivedNames(hasSpeechDuration, withQuality) :: n !in QualityNames
    ensures withQuality ==> forall n | n in QualityNames :: n in DerivedNames(hasSpeechDuration, withQuality)
    ensures SpeechDuration in DerivedNames(hasSpeechDuration, withQuality) <==> hasSpeechDuration
  {
    DerivedNamesSpelled(hasSpeechDuration, withQuality);
  }

  /** Every merged split lists its columns in the order main.py appends them, after the
      base's own, and has the base's rows. */
  lemma MergedColumnOrder<V>(m: Table<V>, pitch: Table<V>, snr: Table<V>, rate: Table<V>, quality: Option<Table<V>>)
    requires MergedFrom(m, pitch, snr, rate, quality)
    ensures m.names[..|pitch.names|] == pitch.names
    ensures m.names[|pitch.names|..] == ["snr", "c50"]
                                   + (if SpeechDuration in snr.names then [SpeechDuration] else [])
                                   + ["speaking_rate", "phonemes"]
                                   + (if quality.Some? then ["stoi", "si-sdr", "pesq"] else [])
    ensures m.rows == pitch.rows
  {
    DerivedNamesSpelled(SpeechDuration in snr.names, quality.Some?);
    assert m.names[|pitch.names|..] == DerivedNames(SpeechDuration in snr.names, quality.Some?);
  }

  /** The copied columns, by name: `si-sdr` holds squim's `sdr` values, and
      `speech_duration` is there exactly when the SNR result has it. */
  lemma MergedColumnValues<V>(m: Table<V>, pitch: Table<V>, snr: Table<V>, rate: Table<V>, quality: Option<Table<V>>)
    requires MergedFrom(m, pitch, snr, rate, quality)
    ensures CopyHolds(m, snr, ("snr", "snr")) && CopyHolds(m, snr, ("c50", "c50"))
    ensures CopyHolds(m, rate, ("speaking_rate", "speaking_rate")) && CopyHolds(m, rate, ("phonemes", "phonemes"))
    ensures SpeechDuration in snr.names ==> CopyHolds(m, snr, (SpeechDuration, SpeechDuration))
    ensures quality.Some? ==>
              && CopyHolds(m, quality.value, ("stoi", "stoi"))
              && CopyHolds(m, quality.value, ("si-sdr", "sdr"))
              && CopyHolds(m, quality.value, ("pesq", "pesq"))
  {
    var c := SnrCopies(SpeechDuration in snr.names);
    assert CopyHolds(m, snr, c[0]) && CopyHolds(m, snr, c[1]);
    if SpeechDuration in snr.names {
      assert CopyHolds(m, snr, c[2]);
    }
    assert CopyHolds(m, rate, RateCopies[0]) && CopyHolds(m, rate, RateCopies[1]);
    if quality.Some? {
      assert CopyHolds(m, quality.value, QualityCopies[0]);
      assert CopyHolds(m, quality.value, QualityCopies[1]);
      assert CopyHolds(m, quality.value, QualityCopies[2]);
    }
  }

  /** Without the quality pass no quality column is appended, with it all three are;
      `speech_duration` is appended exactly when the SNR result has it. */
  lemma QualityColumnsGated<V>(m: Table<V>, pitch: Table<V>, snr: Table<V>, rate: Table<V>, quality: Option<Table<V>>)
    requires MergedFrom(m, pitch, snr, rate, quality)
    ensures quality.None? ==> forall n | n in m.names[|pitch.names|..] :: n !in QualityNames
    ensures quality.Some? ==> forall n | n in QualityNames :: n in m.names[|pitch.names|..]
    ensures SpeechDuration in m.names[|pitch.names|..] <==> SpeechDuration in snr.names
  {
    assert m.names[|pitch.names|..] == DerivedNames(SpeechDuration in snr.names, quality.Some?);
    DerivedNamesGated(SpeechDuration in snr.names, quality.Some?);
  }
}

=== FILE: pipeline.dfy ===
/** The top level of main.py: optional debug row selection, optional renaming of the
    audio and text columns, the four feature passes, the speaking-rate gate and the
    per-split merge. */
module Enrichment {
  import opened Wrappers
  import opened Tables
  import opened ExecutionPlan
  import opened ColumnMerge

  /** What loading yields: a bare dataset, or a collection of named splits. */
  datatype Loaded<V> = Bare(table: Dataset<V>) | Dict(splits: SplitSet<V>)

  /** The splits of a loaded dataset; a bare one is its own single split. */
  function AsSplits<V>(d: Loaded<V>): (s: SplitSet<V>)
    ensures d.Bare? ==> s.order == [Unsplit] && s.tables == map[Unsplit := d.table]
    ensures d.Dict? ==> s == d.splits
  {
    match d
    case Bare(t) => Single(t)
    case Dict(s) => s
  }

  /** Applies a per-split transformation, as `map` does on either kind. */
  function MapLoaded<V>(d: Loaded<V>, f: Dataset<V> -> Dataset<V>): (r: Loaded<V>)
    ensures r.Bare? <==> d.Bare?
    ensures AsSplits(r).order == AsSplits(d).order
    ensures forall n | n in AsSplits(d).tables :: n in AsSplits(r).tables && AsSplits(r).tables[n] == f(AsSplits(d).tables[n])
  {
    match d
    case Bare(t) => Bare(f(t))
    case Dict(s) => Dict(MapSplits(s, f))
  }

  /** The number of rows the debug run keeps. */
  const DebugRows: nat := 100

  /** The rows a split keeps through the debug selection: the first 100 in debug mode,
      unless it is empty. */
  function DebugKept(debug: bool, rows: nat): nat {
    if debug && rows > 0 then DebugRows else rows
  }

  /** In debug mode only the first 100 rows are kept, and an empty dataset is kept as it
      is. A split collection has no row selection, so asking one for it raises. */
  function DebugSelect<V>(d: Loaded<V>, debug: bool): (r: Result<Loaded<V>, Error>)
    ensures !debug ==> r == Success(d)
    ensures debug && d.Dict? ==> r == Failure(SplitsHaveNoSelect)
    ensures debug && d.Bare? ==> (r.Success? <==> DebugRows <= d.table.rows || d.table.rows == 0)
    ensures debug && d.Bare? && r.Failure? ==> r.error == TableFault(IndexOutOfRange(DebugRows - 1, d.table.rows))
    ensures debug && d.Bare? && d.table.rows == 0 ==> r == Success(d)
    ensures debug && r.Success? ==> r.value.Bare? && d.Bare?
    ensures debug && d.Bare? && d.table.rows > 0 && r.Success? ==>
              && r.value.Bare?
              && r.value.table.rows == DebugRows
              && r.value.table.names == d.table.names
              && forall c | c in d.table.columns :: r.value.table.columns[c] == d.table.columns[c][..DebugRows]
  {
    if !debug then
      Success(d)
    else
      match d
      case Dict(_) => Failure(SplitsHaveNoSelect)
      case Bare(t) =>
        var u :- SelectFirst(t, DebugRows).MapFailure(e => TableFault(e));
        Success(Bare(u))
  }

  /** The renaming main.py asks for: the user's audio column becomes `audio` and the
      user's text column becomes `text`; when both are the same column, the later
      entry of the dictionary literal wins. */
  function RenameMapping(args: Args): (m: map<string, string>)
    ensures m.Keys == {args.audioColumnName, args.textColumnName}
    ensures m[args.textColumnName] == "text"
    ensures args.audioColumnName != args.textColumnName ==> m[args.audioColumnName] == "audio"
  {
    map[args.audioColumnName := "audio"][args.textColumnName := "text"]
  }

  /** Applies a fallible per-split operation to either kind; the first failure aborts. */
  function TryLoaded<V>(d: Loaded<V>, f: Dataset<V> -> Result<Dataset<V>, TableError>): (r: Result<Loaded<V>, Error>)
    ensures r.Success? <==> forall n | n in AsSplits(d).tables :: f(AsSplits(d).tables[n]).Success?
    ensures r.Success? ==>
              && (r.value.Bare? <==> d.Bare?)
              && AsSplits(r.value).order == AsSplits(d).order
              && forall n | n in AsSplits(d).tables :: n in AsSplits(r.value).tables && f(AsSplits(d).tables[n]) == Success(AsSplits(r.value).tables[n])
  {
    match d
    case Bare(t) =>
      assert AsSplits(d).tables == map[Unsplit := t];
      var u :- f(t).MapFailure(e => TableFault(e));
      Success(Bare(u))
    case Dict(s) =>
      var u := TrySplits(s, f);
      if u.Failure? then
        assert AsSplits(d).tables == s.tables;
        Failure(TableFault(u.error))
      else
        Success(Dict(u.value))
  }

  /** The renaming step: applied to every split when `rename_column` is set. */
  function RenameStep<V>(d: Loaded<V>, args: Args): (r: Result<Loaded<V>, Error>)
    ensures !args.renameColumn ==> r == Success(d)
    ensures args.renameColumn ==>
              (r.Success? <==> forall n | n in AsSplits(d).tables :: RenameColumns(AsSplits(d).tables[n], RenameMapping(args)).Success?)
    ensures r.Success? ==> (r.value.Bare? <==> d.Bare?) && AsSplits(r.value).order == AsSplits(d).order
    ensures args.renameColumn && r.Success? ==>
              forall n | n in AsSplits(d).tables ::
                n in AsSplits(r.value).tables &&
                RenameColumns(AsSplits(d).tables[n], RenameMapping(args)) == Success(AsSplits(r.value).tables[n])
  {
    if !args.renameColumn then
      Success(d)
    else
      TryLoaded(d, t => RenameColumns(t, RenameMapping(args)))
  }

  /** The rename touches exactly the two named columns: the text column becomes `text`,
      the audio column `audio`, and every other column keeps its name. */
  lemma RenameTouchesOnlyTwo(names: seq<string>, args: Args)
    ensures forall i | 0 <= i < |names| ::
              RenamedNames(names, RenameMapping(args))[i] ==
                (if names[i] == args.textColumnName then "text"
                 else if names[i] == args.audioColumnName then "audio"
                 else names[i])
  {
  }

  /** After a successful rename the text column is called `text`. The audio column is
      called `audio` unless both settings name the same column, which then ends up as
      `text`: `audio` survives only as a column of that name left untouched. */
  lemma RenamedColumnsPresent<V>(t: Dataset<V>, args: Args)
    requires RenameColumns(t, RenameMapping(args)).Success?
    ensures "text" in RenameColumns(t, RenameMapping(args)).value.names
    ensures "audio" in RenameColumns(t, RenameMapping(args)).value.names <==>
              args.audioColumnName != args.textColumnName || ("audio" in t.names && "audio" != args.textColumnName)
  {
    RenamedCanonical(t.names, args);
  }

  lemma RenamedCanonical(names: seq<string>, args: Args)
    requires args.textColumnName in names && args.audioColumnName in names
    ensures "text" in RenamedNames(names, RenameMapping(args))
    ensures "audio" in RenamedNames(names, RenameMapping(args)) <==>
              args.audioColumnName != args.textColumnName || ("audio" in names && "audio" != args.textColumnName)
  {
    var m := RenameMapping(args);
    var rn := RenamedNames(names, m);
    var i :| 0 <= i < |names| && names[i] == args.textColumnName;
    assert rn[i] == "text";
    if args.audioColumnName != args.textColumnName {
      var j :| 0 <= j < |names| && names[j] == args.audioColumnName;
      assert rn[j] == "audio";
    } else if "audio" in names && "audio" != args.textColumnName {
      var j :| 0 <= j < |names| && names[j] == "audio";
      assert rn[j] == "audio";
    }
  }

  /** The four extractors, opaque: each maps a split to its result under a plan. */
  datatype Extractors<!V> = Extractors(
    squim: (Plan, Dataset<V>) -> Dataset<V>,
    pitch: (Plan, Dataset<V>) -> Dataset<V>,
    snr: (Plan, Dataset<V>) -> Dataset<V>,
    rate: (Plan, Dataset<V>) -> Dataset<V>)

  /** Whether the speaking-rate pass runs: the SNR result (of the first split, for a
      split collection) must have `speech_duration`. Asking an empty collection for its
      first split raises. */
  function RatePassRuns<V>(snr: Loaded<V>): (r: Result<bool, Error>)
    ensures r.Failure? <==> |AsSplits(snr).order| == 0
    ensures r.Failure? ==> r.error == NoFirstSplit
    ensures r.Success? ==>
              (r.value <==> SpeechDuration in AsSplits(snr).tables[AsSplits(snr).order[0]].names)
  {
    match snr
    case Bare(t) => Success(SpeechDuration in t.names)
    case Dict(s) =>
      if |s.order| == 0 then Failure(NoFirstSplit)
      else Success(SpeechDuration in s.tables[s.order[0]].names)
  }

  /** Only the first split decides the rate gate: collections that agree on the columns
      of their first split agree on the gate, whatever their other splits hold. */
  lemma RateGateReadsFirstSplitOnly<V>(a: SplitSet<V>, b: SplitSet<V>)
    requires |a.order| > 0 && |b.order| > 0
    requires a.tables[a.order[0]].names == b.tables[b.order[0]].names
    ensures RatePassRuns(Dict(a)) == RatePassRuns(Dict(b))
  {
  }

  /** A bare dataset is gated exactly like the one-split collection holding it. */
  lemma RateGateBareIsSingle<V>(t: Dataset<V>)
    ensures RatePassRuns(Bare(t)) == RatePassRuns(Dict(Single(t)))
  {
  }

  /** The results of the feature passes, each as a split collection. */
  datatype Features<V> = Features(
    quality: Option<SplitSet<V>>,
    pitch: SplitSet<V>,
    snr: SplitSet<V>,
    rate: Option<SplitSet<V>>)

  /** Whether every split of `d` has a column called `name`. */
  predicate EverySplitHas<V>(d: Loaded<V>, name: string) {
    forall n | n in AsSplits(d).tables :: name in AsSplits(d).tables[n].names
  }

  /** Whether `map` accepts the pool of `pass`: it refuses a process count below one
      before it looks at the split, so even an empty split is refused. */
  predicate PoolAccepted(pass: Pass, gpuCount: nat, args: Args) {
    PassPlan(pass, gpuCount, args).pool.numProc > 0
  }

  /** Whether the pools of the passes that always run are accepted: quality when asked
      for, pitch and SNR. */
  predicate EarlyPoolsAccepted(gpuCount: nat, args: Args) {
    && (args.applySquim ==> PoolAccepted(Squim, gpuCount, args))
    && PoolAccepted(Pitch, gpuCount, args)
    && PoolAccepted(Snr, gpuCount, args)
  }

  /** Whether the SNR extractor gives the first split of `d` a `speech_duration` column,
      which opens the rate gate. */
  predicate GateOpens<V>(d: Loaded<V>, args: Args, gpuCount: nat, x: Extractors<V>) {
    && |AsSplits(d).order| > 0
    && SpeechDuration in x.snr(PassPlan(Snr, gpuCount, args), AsSplits(d).tables[AsSplits(d).order[0]]).names
  }

  /** Runs the passes in main.py's order: quality (when asked for), pitch, SNR, then the
      speaking rate over the SNR result when the gate lets it run. Each `map` first
      refuses a pool of fewer than one process; the quality pass then drops, and the
      pitch pass first casts, the audio column of every split, which raises when a
      split does not have it, even an empty one. A split collection without splits
      runs no `map` at all, and fails only at the rate gate. */
  function Passes<V>(d: Loaded<V>, args: Args, gpuCount: nat, x: Extractors<V>): (r: Result<Features<V>, Error>)
    ensures r.Failure? <==>
              || !EverySplitHas(d, ColumnNames(args).0)
              || (|AsSplits(d).order| == 0 && d.Dict?)
              || (|AsSplits(d).order| > 0 && !EarlyPoolsAccepted(gpuCount, args))
              || (GateOpens(d, args, gpuCount, x) && !PoolAccepted(Rate, gpuCount, args))
    ensures |AsSplits(d).order| > 0 && args.applySquim && !PoolAccepted(Squim, gpuCount, args) ==>
              r == Failure(NumProcNotPositive(PassPlan(Squim, gpuCount, args).pool.numProc))
    ensures !EverySplitHas(d, ColumnNames(args).0) && (args.applySquim ==> PoolAccepted(Squim, gpuCount, args)) ==>
              r == Failure(NoAudioColumn(ColumnNames(args).0))
    ensures r.Failure? && r.error.NumProcNotPositive? ==> r.error.numProc <= 0
    ensures r.Failure? ==> r.error.NumProcNotPositive? || r.error == NoAudioColumn(ColumnNames(args).0) || r.error == NoFirstSplit
    ensures r.Success? ==>
              && (r.value.quality.Some? <==> args.applySquim)
              && r.value.pitch.order == AsSplits(d).order
              && r.value.snr.order == AsSplits(d).order
              && forall n | n in AsSplits(d).tables ::
                   && n in r.value.pitch.tables && n in r.value.snr.tables
                   && r.value.pitch.tables[n] == x.pitch(PassPlan(Pitch, gpuCount, args), AsSplits(d).tables[n])
                   && r.value.snr.tables[n] == x.snr(PassPlan(Snr, gpuCount, args), AsSplits(d).tables[n])
                   && (r.value.quality.Some? ==>
                         n in r.value.quality.value.tables &&
                         r.value.quality.value.tables[n] == x.squim(PassPlan(Squim, gpuCount, args), AsSplits(d).tables[n]))
    ensures r.Success? ==>
              (r.value.rate.Some? <==> SpeechDuration in r.value.snr.tables[r.value.snr.order[0]].names)
  {
    var audio := ColumnNames(args).0;
    var some := |AsSplits(d).order| > 0;
    if some && args.applySquim && !PoolAccepted(Squim, gpuCount, args) then
      Failure(NumProcNotPositive(PassPlan(Squim, gpuCount, args).pool.numProc))
    else if !EverySplitHas(d, audio) then
      Failure(NoAudioColumn(audio))
    else if some && !PoolAccepted(Pitch, gpuCount, args) then
      Failure(NumProcNotPositive(PassPlan(Pitch, gpuCount, args).pool.numProc))
    else if some && !PoolAccepted(Snr, gpuCount, args) then
      Failure(NumProcNotPositive(PassPlan(Snr, gpuCount, args).pool.numProc))
    else
      var quality :=
        if args.applySquim then Some(MapLoaded(d, t => x.squim(PassPlan(Squim, gpuCount, args), t))) else None;
      var pitch := MapLoaded(d, t => x.pitch(PassPlan(Pitch, gpuCount, args), t));
      var snr := MapLoaded(d, t => x.snr(PassPlan(Snr, gpuCount, args), t));
      var runs :- RatePassRuns(snr);
      if runs && !PoolAccepted(Rate, gpuCount, args) then
        Failure(NumProcNotPositive(PassPlan(Rate, gpuCount, args).pool.numProc))
      else
        var rate := if runs then Some(MapLoaded(snr, t => x.rate(PassPlan(Rate, gpuCount, args), t))) else None;
        Success(Features(
          if quality.Some? then Some(AsSplits(quality.value)) else None,
          AsSplits(pitch),
          AsSplits(snr),
          if rate.Some? then Some(AsSplits(rate.value)) else None))
  }

  /** The merge of every split of `d`, in its order; the result has the kind of `d`. */
  function MergeLoaded<V>(d: Loaded<V>, f: Features<V>): (r: Result<Loaded<V>, Error>)
    ensures r.Success? <==> forall n | n in AsSplits(d).order :: MergeSplit(n, f.pitch, f.snr, f.rate, f.quality).Success?
    ensures f.rate.None? && |AsSplits(d).order| > 0 ==> r.Failure?
    ensures r.Success? ==>
              && (r.value.Bare? <==> d.Bare?)
              && AsSplits(r.value).order == AsSplits(d).order
              && forall n | n in AsSplits(d).order ::
                   n in AsSplits(r.value).tables &&
                   MergeSplit(n, f.pitch, f.snr, f.rate, f.quality) == Success(AsSplits(r.value).tables[n])
  {
    var merged :- MergeAll(AsSplits(d).order, f.pitch, f.snr, f.rate, f.quality);
    Success(Reassemble(d, merged))
  }

  /** Puts merged splits back into the kind of `d`. */
  function Reassemble<V>(d: Loaded<V>, merged: map<string, Dataset<V>>): (r: Loaded<V>)
    requires merged.Keys == (set n | n in AsSplits(d).order)
    ensures r.Bare? <==> d.Bare?
    ensures AsSplits(r).order == AsSplits(d).order && AsSplits(r).tables == merged
  {
    match d
    case Bare(_) =>
      assert Unsplit in merged;
      Bare(merged[Unsplit])
    case Dict(s) => Dict(Splits(s.order, merged))
  }

  /** The dataset the passes see: after the debug selection and the rename. */
  function Prepare<V>(d: Loaded<V>, args: Args): (r: Result<Loaded<V>, Error>)
    ensures r.Success? ==> (r.value.Bare? <==> d.Bare?) && AsSplits(r.value).order == AsSplits(d).order
  {
    var selected :- DebugSelect(d, args.debug);
    RenameStep(selected, args)
  }

  /** main.py from the loaded dataset to the merged one. */
  function Enrich<V>(d: Loaded<V>, args: Args, gpuCount: nat, x: Extractors<V>): (r: Result<Loaded<V>, Error>)
    ensures r.Success? ==> (r.value.Bare? <==> d.Bare?) && AsSplits(r.value).order == AsSplits(d).order
  {
    var prepared :- Prepare(d, args);
    var features :- Passes(prepared, args, gpuCount, x);
    MergeLoaded(prepared, features)
  }

  /** A successful run went through every stage, and each output split is the merge of
      that split's pass results. */
  lemma EnrichStages<V>(d: Loaded<V>, args: Args, gpuCount: nat, x: Extractors<V>)
    requires Enrich(d, args, gpuCount, x).Success?
    ensures Prepare(d, args).Success?
    ensures Passes(Prepare(d, args).value, args, gpuCount, x).Success?
    ensures MergeLoaded(Prepare(d, args).value, Passes(Prepare(d, args).value, args, gpuCount, x).value)
            == Enrich(d, args, gpuCount, x)
  {
  }

  /** If the SNR result of the first split lacks `speech_duration`, the rate result is
      never bound and the run fails, whatever the other splits hold. */
  lemma MissingSpeechDurationFails<V>(d: Loaded<V>, args: Args, gpuCount: nat, x: Extractors<V>)
    requires Prepare(d, args).Success?
    requires |AsSplits(d).order| > 0
    requires SpeechDuration !in x.snr(PassPlan(Snr, gpuCount, args), AsSplits(Prepare(d, args).value).tables[AsSplits(d).order[0]]).names
    ensures Enrich(d, args, gpuCount, x).Failure?
  {
    var p := Prepare(d, args).value;
    var f := Passes(p, args, gpuCount, x);
    var n := AsSplits(d).order[0];
    assert n in AsSplits(p).tables;
    if f.Success? {
      assert f.value.snr.tables[n] == x.snr(PassPlan(Snr, gpuCount, args), AsSplits(p).tables[n]);
      assert f.value.rate.None?;
    }
  }

  /** A prepared split without the audio column stops the run in the first pass, before
      any extractor runs, even when that split is empty. */
  lemma MissingAudioColumnFails<V>(d: Loaded<V>, args: Args, gpuCount: nat, x: Extractors<V>, n: string)
    requires Prepare(d, args).Success?
    requires n in AsSplits(Prepare(d, args).value).tables
    requires ColumnNames(args).0 !in AsSplits(Prepare(d, args).value).tables[n].names
    ensures Enrich(d, args, gpuCount, x).Failure?
    ensures (args.applySquim ==> PoolAccepted(Squim, gpuCount, args)) ==>
              Enrich(d, args, gpuCount, x) == Failure(NoAudioColumn(ColumnNames(args).0))
  {
    assert !EverySplitHas(Prepare(d, args).value, ColumnNames(args).0);
  }

  /** When the audio and text settings name the same column, the rename leaves no `audio`
      column in a dataset that had none, so the run stops in the first pass. */
  lemma SameColumnRenameFails<V>(t: Dataset<V>, args: Args, gpuCount: nat, x: Extractors<V>)
    requires args.renameColumn && args.audioColumnName == args.textColumnName
    requires "audio" !in t.names
    requires Prepare(Bare(t), args).Success?
    ensures Enrich(Bare(t), args, gpuCount, x).Failure?
    ensures (args.applySquim ==> PoolAccepted(Squim, gpuCount, args)) ==>
              Enrich(Bare(t), args, gpuCount, x) == Failure(NoAudioColumn("audio"))
  {
    var s := DebugSelect(Bare(t), args.debug).value;
    var p := Prepare(Bare(t), args).value;
    assert RenameColumns(s.table, RenameMapping(args)) == Success(p.table);
    RenamedColumnsPresent(s.table, args);
    MissingAudioColumnFails(Bare(t), args, gpuCount, x, Unsplit);
  }

  /** Without devices every pass asks for `cpu_num_workers` processes, so a setting below
      one stops the run at the first `map`: the quality pass when asked for, otherwise
      the pitch pass once its cast has found the audio column. */
  lemma CpuPoolRefused<V>(d: Loaded<V>, args: Args, x: Extractors<V>)
    requires Prepare(d, args).Success? && |AsSplits(d).order| > 0
    requires args.cpuNumWorkers <= 0
    ensures Enrich(d, args, 0, x).Failure?
    ensures args.applySquim || EverySplitHas(Prepare(d, args).value, ColumnNames(args).0) ==>
              Enrich(d, args, 0, x) == Failure(NumProcNotPositive(args.cpuNumWorkers))
  {
    assert !PoolAccepted(Pitch, 0, args);
  }

  /** Each output split has the rows of the pitch result, so with a row-keeping pitch
      extractor the run keeps every split's rows: all of them, or the first 100 of a
      non-empty one in debug mode. */
  lemma EnrichKeepsRows<V>(d: Loaded<V>, args: Args, gpuCount: nat, x: Extractors<V>)
    requires forall plan, t :: x.pitch(plan, t).rows == t.rows
    requires Enrich(d, args, gpuCount, x).Success?
    ensures forall n | n in AsSplits(d).tables ::
              n in AsSplits(Enrich(d, args, gpuCount, x).value).tables &&
              AsSplits(Enrich(d, args, gpuCount, x).value).tables[n].rows ==
                DebugKept(args.debug, AsSplits(d).tables[n].rows)
  {
    EnrichStages(d, args, gpuCount, x);
    var p := Prepare(d, args).value;
    var f := Passes(p, args, gpuCount, x).value;
    var out := Enrich(d, args, gpuCount, x).value;
    forall n | n in AsSplits(d).tables
      ensures n in AsSplits(out).tables
      ensures AsSplits(out).tables[n].rows == DebugKept(args.debug, AsSplits(d).tables[n].rows)
    {
      assert n in AsSplits(d).order;
      var m := AsSplits(out).tables[n];
      var pitch := f.pitch.tables[n];
      assert MergeSplit(n, f.pitch, f.snr, f.rate, f.quality) == Success(m);
      assert m.rows == pitch.rows;
      assert pitch.rows == AsSplits(p).tables[n].rows;
      PreparedRows(d, args, n);
    }
  }

  /** The prepared dataset keeps each split's rows, or the first 100 of a non-empty one
      in debug mode. */
  lemma PreparedRows<V>(d: Loaded<V>, args: Args, n: string)
    requires Prepare(d, args).Success? && n in AsSplits(d).tables
    ensures n in AsSplits(Prepare(d, args).value).tables
    ensures AsSplits(Prepare(d, args).value).tables[n].rows == DebugKept(args.debug, AsSplits(d).tables[n].rows)
  {
    var s := DebugSelect(d, args.debug).value;
    if args.renameColumn {
      assert RenameColumns(AsSplits(s).tables[n], RenameMapping(args)) == Success(AsSplits(Prepare(d, args).value).tables[n]);
    }
  }

  /** In a merged split, the base columns come first; without the quality result no
      quality column follows, with it all three do; `speech_duration` follows exactly
      when that split's SNR result has it. */
  lemma MergedSplitColumns<V>(p: Loaded<V>, f: Features<V>, n: string)
    requires MergeLoaded(p, f).Success? && n in AsSplits(p).order
    ensures n in f.pitch.tables && n in f.snr.tables && n in AsSplits(MergeLoaded(p, f).value).tables
    ensures
      var base := f.pitch.tables[n];
      var out := AsSplits(MergeLoaded(p, f).value).tables[n];
      && |base.names| <= |out.names| && out.names[..|base.names|] == base.names
      && (f.quality.None? ==> forall c | c in out.names[|base.names|..] :: c !in QualityNames)
      && (f.quality.Some? ==> forall c | c in QualityNames :: c in out.names[|base.names|..])
      && (SpeechDuration in out.names[|base.names|..] <==> SpeechDuration in f.snr.tables[n].names)
  {
    var m := AsSplits(MergeLoaded(p, f).value).tables[n];
    assert MergeSplit(n, f.pitch, f.snr, f.rate, f.quality) == Success(m);
    var q := OptionalSplit(f.quality, n);
    MergedColumnOrder(m, f.pitch.tables[n], f.snr.tables[n], f.rate.value.tables[n], q);
    QualityColumnsGated(m, f.pitch.tables[n], f.snr.tables[n], f.rate.value.tables[n], q);
  }

  /** Without the quality flag no output split gains a quality column; with it every
      split gains all three. A split gains `speech_duration` exactly when its SNR result
      has it. */
  lemma QualityOnlyWithFlag<V>(d: Loaded<V>, args: Args, gpuCount: nat, x: Extractors<V>, prepared: Loaded<V>, out: Loaded<V>, n: string)
    requires Prepare(d, args) == Success(prepared)
    requires Enrich(d, args, gpuCount, x) == Success(out)
    requires n in AsSplits(d).tables
    ensures n in AsSplits(prepared).tables && n in AsSplits(out).tables
    ensures
      var split := AsSplits(prepared).tables[n];
      var base := x.pitch(PassPlan(Pitch, gpuCount, args), split);
      var merged := AsSplits(out).tables[n];
      && |base.names| <= |merged.names| && merged.names[..|base.names|] == base.names
      && (!args.applySquim ==> forall c | c in merged.names[|base.names|..] :: c !in QualityNames)
      && (args.applySquim ==> forall c | c in QualityNames :: c in merged.names[|base.names|..])
      && (SpeechDuration in merged.names[|base.names|..] <==> SpeechDuration in x.snr(PassPlan(Snr, gpuCount, args), split).names)
  {
    EnrichStages(d, args, gpuCount, x);
    var f := Passes(prepared, args, gpuCount, x).value;
    assert n in AsSplits(d).order;
    MergedSplitColumns(prepared, f, n);
  }

  /** Lines 137-138: the first row is selected and displayed before anything is saved.
      A split collection has no row selection; an empty dataset comes back from the
      selection unchanged, and reading its row 0 raises. */
  function Showcase<V>(d: Loaded<V>): (r: Result<Dataset<V>, Error>)
    ensures d.Dict? ==> r == Failure(SplitsHaveNoSelect)
    ensures d.Bare? ==> (r.Success? <==> d.table.rows >= 1)
    ensures d.Bare? && r.Failure? ==> r.error == TableFault(IndexOutOfRange(0, 0))
    ensures r.Success? ==> r.value.rows == 1 && r.value.names == d.table.names
  {
    match d
    case Dict(_) => Failure(SplitsHaveNoSelect)
    case Bare(t) =>
      match SelectFirst(t, 1)
      case Failure(e) => Failure(TableFault(e))
      case Success(u) => if u.rows == 0 then Failure(TableFault(IndexOutOfRange(0, u.rows))) else Success(u)
  }

  /** main.py up to the point where the result is saved: the enrichment, then the
      display of its first row. */
  function Complete<V>(d: Loaded<V>, args: Args, gpuCount: nat, x: Extractors<V>): (r: Result<Loaded<V>, Error>)
    ensures r.Success? ==> Enrich(d, args, gpuCount, x) == r
  {
    var out :- Enrich(d, args, gpuCount, x);
    var _ :- Showcase(out);
    Success(out)
  }

  /** A split collection never reaches the save: every pass and merge may go through,
      but the row display before the save raises. */
  lemma SplitCollectionsNeverSaved<V>(d: Loaded<V>, args: Args, gpuCount: nat, x: Extractors<V>)
    requires d.Dict?
    ensures Complete(d, args, gpuCount, x).Failure?
    ensures Enrich(d, args, gpuCount, x).Success? ==> Complete(d, args, gpuCount, x) == Failure(SplitsHaveNoSelect)
  {
  }

  /** A bare dataset reaches the save exactly when its enrichment succeeds with at least
      one row. */
  lemma BareSavedIffNonEmpty<V>(d: Loaded<V>, args: Args, gpuCount: nat, x: Extractors<V>)
    requires d.Bare? && Enrich(d, args, gpuCount, x).Success?
    ensures Complete(d, args, gpuCount, x).Success? <==> Enrich(d, args, gpuCount, x).value.table.rows >= 1
  {
    var out := Enrich(d, args, gpuCount, x).value;
    assert out.Bare?;
    assert Complete(d, args, gpuCount, x).Success? <==> Showcase(out).Success?;
  }

  /** A loaded dataset whose first split (itself, when bare) has a row to display. */
  predicate FirstSplitHasRow<V>(d: Loaded<V>) {
    |AsSplits(d).order| > 0 && AsSplits(d).tables[AsSplits(d).order[0]].rows >= 1
  }

  /** The display line 137 evidently means for either kind: the first row of the first
      split, which for a bare dataset is its own first row. */
  function ShowcaseFirstSplit<V>(d: Loaded<V>): (r: Result<Dataset<V>, Error>)
    ensures r.Success? <==> FirstSplitHasRow(d)
    ensures |AsSplits(d).order| == 0 ==> r == Failure(NoFirstSplit)
    ensures r.Success? ==>
              r.value.rows == 1 && r.value.names == AsSplits(d).tables[AsSplits(d).order[0]].names
  {
    var s := AsSplits(d);
    if |s.order| == 0 then Failure(NoFirstSplit)
    else Showcase(Bare(s.tables[s.order[0]]))
  }

  /** main.py up to the save, with the display of the first split's first row. */
  function CompleteFixed<V>(d: Loaded<V>, args: Args, gpuCount: nat, x: Extractors<V>): (r: Result<Loaded<V>, Error>)
    ensures r.Success? ==> Enrich(d, args, gpuCount, x) == r
  {
    var out :- Enrich(d, args, gpuCount, x);
    var _ :- ShowcaseFirstSplit(out);
    Success(out)
  }

  /** With the display fixed, a split collection reaches the save exactly when its
      enrichment succeeds with a row in its first split, and a bare dataset is saved
      exactly as before. */
  lemma FixedSavesSplitCollections<V>(d: Loaded<V>, args: Args, gpuCount: nat, x: Extractors<V>)
    requires Enrich(d, args, gpuCount, x).Success?
    ensures CompleteFixed(d, args, gpuCount, x).Success? <==> FirstSplitHasRow(Enrich(d, args, gpuCount, x).value)
    ensures d.Bare? ==> CompleteFixed(d, args, gpuCount, x) == Complete(d, args, gpuCount, x)
  {
    var out := Enrich(d, args, gpuCount, x).value;
    assert CompleteFixed(d, args, gpuCount, x).Success? <==> ShowcaseFirstSplit(out).Success?;
    if d.Bare? {
      assert out.Bare?;
      assert Showcase(Bare(AsSplits(out).tables[AsSplits(out).order[0]])) == Showcase(out);
    }
  }
}

=== FILE: placeholders.dfy ===
/** Bracketed placeholders such as `[speaker]` in a prompt template, and what
    `str.replace` does to a text assembled from literal runs and placeholders. */
module Placeholders {
  import opened Text

  /** A character that cannot open a placeholder. */
  type PlainChar = c: char | c != '['

  /** Text with no `[` in it: no placeholder can start inside it. */
  type Plain = seq<PlainChar>

  /** A field name that can sit between the brackets of a placeholder. */
  type FieldName = s: Plain | ']' !in s

  /** The concatenation of a list of plain texts. */
  function Concat(parts: seq<Plain>): Plain {
    if |parts| == 0 then [] else parts[0] + Concat(parts[1..])
  }

  /** The placeholder of field `name`: `[name]`. */
  function Token(name: FieldName): string {
    "[" + name + "]"
  }

  /** A piece of a template: literal text, or the placeholder of a field. */
  datatype Piece = Lit(text: Plain) | Slot(name: FieldName)

  function Show(p: Piece): string {
    match p
    case Lit(t) => t
    case Slot(n) => Token(n)
  }

  /** The text a list of pieces spells. */
  function Render(ps: seq<Piece>): string {
    if |ps| == 0 then [] else Show(ps[0]) + Render(ps[1..])
  }

  /** Puts `q` wherever the placeholder of `name` stands. */
  function Fill(ps: seq<Piece>, name: FieldName, q: Piece): seq<Piece> {
    seq(|ps|, i requires 0 <= i < |ps| => Step(ps[i], name, q))
  }

  /** What one replacement does to one piece. */
  function Step(p: Piece, name: FieldName, q: Piece): Piece {
    if p == Slot(name) then q else p
  }

  /** How many times the placeholder of `name` stands in `ps`. */
  function Slots(ps: seq<Piece>, name: FieldName): nat {
    if |ps| == 0 then 0
    else (if ps[0] == Slot(name) then 1 else 0) + Slots(ps[1..], name)
  }

  /** Replacing placeholders in the rendered text is the same as filling the pieces:
      `str.replace` finds the placeholder of `name` exactly where a slot for `name`
      stands, never inside literal text and never inside another field's placeholder. */
  lemma {:induction false} ReplaceSlot(ps: seq<Piece>, name: FieldName, q: Piece)
    ensures ReplaceAll(Render(ps), Token(name), Show(q)) == Render(Fill(ps, name, q))
  {
    if |ps| > 0 {
      ReplaceSlot(ps[1..], name, q);
      ScanPiece(ps[0], Render(ps[1..]), name, q);
      FillCons(ps, name, q);
    }
  }

  lemma FillCons(ps: seq<Piece>, name: FieldName, q: Piece)
    requires |ps| > 0
    ensures Render(Fill(ps, name, q)) == Show(Step(ps[0], name, q)) + Render(Fill(ps[1..], name, q))
  {
    var f := Fill(ps, name, q);
    assert f[0] == Step(ps[0], name, q);
    assert f[1..] == Fill(ps[1..], name, q);
  }

  /** `str.count` sees the placeholder of `name` once per slot for `name`. */
  lemma {:induction false} CountSlot(ps: seq<Piece>, name: FieldName)
    ensures Count(Render(ps), Token(name)) == Slots(ps, name)
  {
    if |ps| > 0 {
      CountSlot(ps[1..], name);
      ScanPiece(ps[0], Render(ps[1..]), name, ps[0]);
    }
  }

  /** The scan for the placeholder of `name` over one piece followed by `rest`. */
  lemma ScanPiece(p: Piece, rest: string, name: FieldName, q: Piece)
    ensures ReplaceAll(Show(p) + rest, Token(name), Show(q)) == Show(Step(p, name, q)) + ReplaceAll(rest, Token(name), Show(q))
    ensures Count(Show(p) + rest, Token(name)) == (if p == Slot(name) then 1 else 0) + Count(rest, Token(name))
  {
    match p
    case Lit(t) =>
      PlainPrefix(t, rest, Token(name), Show(q));
    case Slot(m) =>
      if m == name {
        TokenHere(name, rest, Show(q));
      } else {
        OtherToken(m, name, rest, Show(q));
      }
  }

  /** Rendering distributes over concatenation. */
  lemma {:induction false} RenderAppend(a: seq<Piece>, b: seq<Piece>)
    ensures Render(a + b) == Render(a) + Render(b)
  {
    if |a| == 0 {
      assert a + b == b;
    } else {
      assert (a + b)[0] == a[0];
      assert (a + b)[1..] == a[1..] + b;
      RenderAppend(a[1..], b);
    }
  }

  /** Filling distributes over concatenation. */
  lemma FillAppend(a: seq<Piece>, b: seq<Piece>, name: FieldName, q: Piece)
    ensures Fill(a + b, name, q) == Fill(a, name, q) + Fill(b, name, q)
  {
  }

  /** Replaces, in order, the placeholder of `names[k]` by `values[k]`: a chain of
      `str.replace` calls. */
  function ReplaceEach(s: string, names: seq<FieldName>, values: seq<string>): string
    requires |names| == |values|
    decreases |names|
  {
    if |names| == 0 then s
    else ReplaceEach(ReplaceAll(s, Token(names[0]), values[0]), names[1..], values[1..])
  }

  /** Fills the pieces in the same order. */
  function FillEach(ps: seq<Piece>, names: seq<FieldName>, qs: seq<Piece>): seq<Piece>
    requires |names| == |qs|
    decreases |names|
  {
    if |names| == 0 then ps
    else FillEach(Fill(ps, names[0], qs[0]), names[1..], qs[1..])
  }

  /** Where one piece ends up after the whole chain of replacements. */
  function Follow(p: Piece, names: seq<FieldName>, qs: seq<Piece>): Piece
    requires |names| == |qs|
    decreases |names|
  {
    if |names| == 0 then p
    else Follow(Step(p, names[0], qs[0]), names[1..], qs[1..])
  }

  /** The texts of the pieces. */
  function Shows(qs: seq<Piece>): (r: seq<string>)
    ensures |r| == |qs| && forall i | 0 <= i < |qs| :: r[i] == Show(qs[i])
  {
    seq(|qs|, i requires 0 <= i < |qs| => Show(qs[i]))
  }

  /** A chain of replacements on rendered pieces is the rendering of the filled pieces. */
  lemma {:induction false} ReplaceEachSlot(ps: seq<Piece>, names: seq<FieldName>, qs: seq<Piece>)
    requires |names| == |qs|
    ensures ReplaceEach(Render(ps), names, Shows(qs)) == Render(FillEach(ps, names, qs))
    decreases |names|
  {
    if |names| > 0 {
      ReplaceSlot(ps, names[0], qs[0]);
      assert Shows(qs)[1..] == Shows(qs[1..]);
      ReplaceEachSlot(Fill(ps, names[0], qs[0]), names[1..], qs[1..]);
    }
  }

  /** The chain of fills acts piece by piece: each piece follows its own path. */
  lemma {:induction false} FillEachPointwise(ps: seq<Piece>, names: seq<FieldName>, qs: seq<Piece>)
    requires |names| == |qs|
    ensures |FillEach(ps, names, qs)| == |ps|
    ensures forall i | 0 <= i < |ps| :: FillEach(ps, names, qs)[i] == Follow(ps[i], names, qs)
    decreases |names|
  {
    if |names| > 0 {
      FillEachPointwise(Fill(ps, names[0], qs[0]), names[1..], qs[1..]);
    }
  }

  /** Literal text is never touched by a replacement. */
  lemma {:induction false} FollowLit(t: Plain, names: seq<FieldName>, qs: seq<Piece>)
    requires |names| == |qs|
    ensures Follow(Lit(t), names, qs) == Lit(t)
    decreases |names|
  {
    if |names| > 0 {
      FollowLit(t, names[1..], qs[1..]);
    }
  }

  /** With distinct names and literal replacements, the placeholder of `names[k]` ends up
      as `qs[k]`. */
  lemma {:induction false} FollowDistinct(k: nat, names: seq<FieldName>, qs: seq<Piece>)
    requires |names| == |qs| && k < |names|
    requires DistinctNames(names)
    requires forall i | 0 <= i < |qs| :: qs[i].Lit?
    ensures Follow(Slot(names[k]), names, qs) == qs[k]
    decreases |names|
  {
    if k == 0 {
      FollowLit(qs[0].text, names[1..], qs[1..]);
    } else {
      assert names[0] != names[k];
      FollowDistinct(k - 1, names[1..], qs[1..]);
    }
  }

  /** No field name occurs twice. */
  predicate DistinctNames(names: seq<FieldName>) {
    forall i, j | 0 <= i < j < |names| :: names[i] != names[j]
  }

  /** The placeholders of `names`, in order. */
  function SlotsOf(names: seq<FieldName>): (ps: seq<Piece>)
    ensures |ps| == |names| && forall i | 0 <= i < |names| :: ps[i] == Slot(names[i])
  {
    seq(|names|, i requires 0 <= i < |names| => Slot(names[i]))
  }

  /** Filling the placeholders of distinct names with literals, in order, puts each
      literal in its own place. */
  lemma FillLiterals(names: seq<FieldName>, qs: seq<Piece>)
    requires |names| == |qs|
    requires DistinctNames(names)
    requires forall i | 0 <= i < |qs| :: qs[i].Lit?
    ensures FillEach(SlotsOf(names), names, qs) == qs
  {
    FillEachPointwise(SlotsOf(names), names, qs);
    forall k | 0 <= k < |names| ensures FillEach(SlotsOf(names), names, qs)[k] == qs[k] {
      FollowDistinct(k, names, qs);
    }
  }

  /** When the first value is the placeholder of the last name and the others are
      literals, the first position ends up holding the last literal. */
  lemma FillRenamed(names: seq<FieldName>, qs: seq<Piece>)
    requires 1 < |names| == |qs| && DistinctNames(names)
    requires qs[0] == Slot(names[|names| - 1])
    requires forall i | 1 <= i < |qs| :: qs[i].Lit?
    ensures FillEach(SlotsOf(names), names, qs) == [qs[|qs| - 1]] + qs[1..]
  {
    var last := |names| - 1;
    FillEachPointwise(SlotsOf(names), names, qs);
    assert DistinctNames(names[1..]);
    forall k | 0 <= k < |names| ensures FillEach(SlotsOf(names), names, qs)[k] == ([qs[last]] + qs[1..])[k] {
      if k == 0 {
        assert names[1..][last - 1] == names[last];
        FollowDistinct(last - 1, names[1..], qs[1..]);
      } else {
        assert names[0] != names[k];
        FollowDistinct(k - 1, names[1..], qs[1..]);
      }
    }
  }

  /** The placeholders of distinct names hold each name exactly once. */
  lemma {:induction false} SlotsOfDistinct(names: seq<FieldName>, k: nat)
    requires k < |names| && DistinctNames(names)
    ensures Slots(SlotsOf(names), names[k]) == 1
    decreases |names|
  {
    assert SlotsOf(names)[1..] == SlotsOf(names[1..]);
    assert DistinctNames(names[1..]);
    if k == 0 {
      SlotsAbsent(names[1..], names[0]);
    } else {
      assert names[0] != names[k];
      SlotsOfDistinct(names[1..], k - 1);
    }
  }

  lemma {:induction false} SlotsAbsent(names: seq<FieldName>, name: FieldName)
    requires name !in names
    ensures Slots(SlotsOf(names), name) == 0
    decreases |names|
  {
    if |names| > 0 {
      assert SlotsOf(names)[1..] == SlotsOf(names[1..]);
      SlotsAbsent(names[1..], name);
    }
  }

  /** Counting slots distributes over concatenation. */
  lemma {:induction false} SlotsAppend(a: seq<Piece>, b: seq<Piece>, name: FieldName)
    ensures Slots(a + b, name) == Slots(a, name) + Slots(b, name)
  {
    if |a| == 0 {
      assert a + b == b;
    } else {
      assert (a + b)[0] == a[0];
      assert (a + b)[1..] == a[1..] + b;
      SlotsAppend(a[1..], b, name);
    }
  }

  /** A scan for a pattern that starts with `[` passes over plain text unchanged. */
  lemma {:induction false} PlainPrefix(t: Plain, rest: string, pat: string, rep: string)
    requires |pat| > 0 && pat[0] == '['
    ensures ReplaceAll(t + rest, pat, rep) == t + ReplaceAll(rest, pat, rep)
    ensures Count(t + rest, pat) == Count(rest, pat)
  {
    if |t| == 0 {
      assert t + rest == rest;
    } else {
      var s: string := t + rest;
      var u: Plain := t[1..];
      assert s[0] == t[0];
      assert pat[0] != s[0];
      ScanMiss(s, pat, rep);
      assert s[1..] == u + rest;
      PlainPrefix(u, rest, pat, rep);
      var tail := ReplaceAll(rest, pat, rep);
      assert ReplaceAll(s, pat, rep) == [t[0]] + (u + tail);
      assert [t[0]] + (u + tail) == t + tail;
    }
  }


  /** A scan that starts on the placeholder it looks for replaces it and moves past it. */
  lemma TokenHere(name: FieldName, rest: string, rep: string)
    ensures ReplaceAll(Token(name) + rest, Token(name), rep) == rep + ReplaceAll(rest, Token(name), rep)
    ensures Count(Token(name) + rest, Token(name)) == 1 + Count(rest, Token(name))
  {
    var s := Token(name) + rest;
    assert Token(name) <= s;
    ScanHit(s, Token(name), rep);
    assert s[|Token(name)|..] == rest;
  }

  /** A scan for one placeholder passes over another field's placeholder unchanged. */
  lemma OtherToken(m: FieldName, name: FieldName, rest: string, rep: string)
    requires m != name
    ensures ReplaceAll(Token(m) + rest, Token(name), rep) == Token(m) + ReplaceAll(rest, Token(name), rep)
    ensures Count(Token(m) + rest, Token(name)) == Count(rest, Token(name))
  {
    TokenNotPrefix(m, name, rest);
    SkipBracketed(Token(m), m + "]", rest, Token(name), rep);
  }

  /** A scan for a pattern that does not start at a `[` followed by plain text
      passes over both unchanged. */
  lemma SkipBracketed(x: string, tail: Plain, rest: string, pat: string, rep: string)
    requires x == ['['] + tail && |pat| > 0 && pat[0] == '[' && !(pat <= x + rest)
    ensures ReplaceAll(x + rest, pat, rep) == x + ReplaceAll(rest, pat, rep)
    ensures Count(x + rest, pat) == Count(rest, pat)
  {
    var s := x + rest;
    assert s[0] == '[';
    ScanMiss(s, pat, rep);
    assert s[1..] == tail + rest;
    PlainPrefix(tail, rest, pat, rep);
    var r := ReplaceAll(rest, pat, rep);
    assert ReplaceAll(s, pat, rep) == ['['] + (tail + r);
    assert ['['] + (tail + r) == x + r;
  }

  /** Placeholders of different fields never start the same way: the closing `]` of
      the shorter one meets a name character of the longer one. */
  lemma TokenNotPrefix(m: FieldName, name: FieldName, rest: string)
    requires m != name
    ensures !(Token(name) <= Token(m) + rest)
    ensures !(Token(name) <= ['['] + (m + "]") + rest)
  {
    var s := Token(m) + rest;
    var tn := Token(name);
    if |name| < |m| {
      assert tn[|name| + 1] == ']' != m[|name|] == s[|name| + 1];
    } else if |name| > |m| {
      assert tn[|m| + 1] == name[|m|] != ']' == s[|m| + 1];
    } else {
      assert tn[1..|name| + 1] == name != m == s[1..|m| + 1];
      assert |tn| <= |s| ==> s[..|tn|][1..|m| + 1] == m;
    }
  }

  /** Plain text holds no placeholder. */
  lemma PlainHasNoToken(t: string, name: FieldName)
    requires '[' !in t
    ensures !Contains(t, Token(name))
  {
    var tok := Token(name);
    forall i: nat | i <= |t| ensures !OccursAt(t, tok, i) {
      if i + |tok| <= |t| {
        assert t[i..i + |tok|][0] == t[i] != tok[0] by { assert t[i] in t; }
      }
    }
  }

  /** Joining plain texts with a plain separator gives plain text. */
  lemma {:induction false} JoinPlain(parts: seq<Plain>, sep: Plain)
    requires |parts| > 0
    ensures '[' !in Join(parts, sep)
    decreases |parts|
  {
    if |parts| > 1 {
      JoinPlain(parts[1..], sep);
      var t: Plain := parts[0] + sep;
      assert Join(parts, sep) == t + Join(parts[1..], sep);
    }
  }

  /** Text between two plain texts adds no `[` of its own making. */
  lemma PlainAround(t: Plain, mid: string, u: Plain)
    requires '[' !in mid
    ensures '[' !in t + mid + u
  {
  }
}

=== FILE: plan.dfy ===
/** The settings main.py reads from its command line, and the execution plan it
    derives from them for each feature pass (worker pool, device pinning, batching). */
module ExecutionPlan {
  import opened Wrappers

  /** The command-line settings the feature passes depend on. */
  datatype Args = Args(
    audioColumnName: string,
    textColumnName: string,
    renameColumn: bool,
    cpuNumWorkers: int,
    cpuWriterBatchSize: int,
    batchSize: int,
    pennBatchSize: int,
    workersPerGpuForPitch: int,
    workersPerGpuForSnr: int,
    applySquim: bool,
    workersPerGpuForSquim: int,
    debug: bool)

  /** The command-line defaults. */
  function DefaultArgs(): Args {
    Args("audio", "text", false, 4, 1000, 2, 4096, 1, 1, false, 1, false)
  }

  /** The audio and text column names the passes are told to read. */
  function ColumnNames(args: Args): (names: (string, string))
    ensures args.renameColumn ==> names == ("audio", "text")
    ensures !args.renameColumn ==> names == (args.audioColumnName, args.textColumnName)
  {
    (if args.renameColumn then "audio" else args.audioColumnName,
     if args.renameColumn then "text" else args.textColumnName)
  }

  /** The four feature passes. */
  datatype Pass = Squim | Pitch | Snr | Rate

  /** A process pool: whether each worker receives its rank, and how many workers there are. */
  datatype Pool = Pool(withRank: bool, numProc: int)

  /** How rows reach the extractor: in batches of a given size, or one by one with a writer batch size. */
  datatype Batching = Batched(batchSize: int) | PerExample(writerBatchSize: int)

  /** Everything a pass hands to the library's `map` besides the extractor itself. */
  datatype Plan = Plan(
    pool: Pool,
    batching: Batching,
    audioColumn: string,
    textColumn: Option<string>,
    pennBatchSize: Option<int>)

  /** The pool a device-capable pass gets: ranked workers, `workersPerGpu` per device, when
      devices exist; otherwise the shared CPU worker count without ranks. */
  function DevicePool(gpuCount: nat, workersPerGpu: int, cpuWorkers: int): (p: Pool)
    ensures p.withRank <==> gpuCount > 0
    ensures gpuCount > 0 ==> p.numProc == gpuCount * workersPerGpu
    ensures gpuCount == 0 ==> p.numProc == cpuWorkers
  {
    Pool(if gpuCount > 0 then true else false,
         if gpuCount > 0 then gpuCount * workersPerGpu else cpuWorkers)
  }

  /** The per-device worker setting of a device-capable pass. */
  function WorkersPerGpu(pass: Pass, args: Args): int
    requires pass != Rate
  {
    match pass
    case Squim => args.workersPerGpuForSquim
    case Pitch => args.workersPerGpuForPitch
    case Snr => args.workersPerGpuForSnr
  }

  /** The plan of one pass, given the number of visible devices. */
  function PassPlan(pass: Pass, gpuCount: nat, args: Args): (p: Plan)
    ensures pass == Rate ==> p.pool == Pool(false, args.cpuNumWorkers)
    ensures pass == Rate ==> p.batching == PerExample(args.cpuWriterBatchSize)
    ensures pass != Rate ==> p.batching == Batched(args.batchSize)
    ensures pass != Rate ==> (p.pool.withRank <==> gpuCount > 0)
    ensures p.pennBatchSize.Some? <==> pass == Pitch
    ensures pass == Pitch ==> p.pennBatchSize == Some(args.pennBatchSize)
    ensures p.textColumn.Some? <==> pass == Rate
    ensures p.audioColumn == ColumnNames(args).0
    ensures pass == Rate ==> p.textColumn == Some(ColumnNames(args).1)
  {
    var (audio, text) := ColumnNames(args);
    match pass
    case Squim =>
      Plan(DevicePool(gpuCount, args.workersPerGpuForSquim, args.cpuNumWorkers), Batched(args.batchSize), audio, None, None)
    case Pitch =>
      Plan(DevicePool(gpuCount, args.workersPerGpuForPitch, args.cpuNumWorkers), Batched(args.batchSize), audio, None, Some(args.pennBatchSize))
    case Snr =>
      Plan(DevicePool(gpuCount, args.workersPerGpuForSnr, args.cpuNumWorkers), Batched(args.batchSize), audio, None, None)
    case Rate =>
      Plan(Pool(false, args.cpuNumWorkers), PerExample(args.cpuWriterBatchSize), audio, Some(text), None)
  }

  /** With devices present, a device-capable pass runs `workersPerGpu` ranked workers per
      device; without them it falls back to the unranked CPU worker count. */
  lemma DevicePassPool(pass: Pass, gpuCount: nat, args: Args)
    requires pass != Rate
    ensures gpuCount > 0 ==> PassPlan(pass, gpuCount, args).pool == Pool(true, gpuCount * WorkersPerGpu(pass, args))
    ensures gpuCount == 0 ==> PassPlan(pass, gpuCount, args).pool == Pool(false, args.cpuNumWorkers)
  {
  }

  /** The speaking-rate pass never depends on the device count. */
  lemma RatePlanIgnoresDevices(g1: nat, g2: nat, args: Args)
    ensures PassPlan(Rate, g1, args) == PassPlan(Rate, g2, args)
  {
  }

  /** Without devices, all four passes share one unranked pool of `cpu_num_workers` processes. */
  lemma CpuPlansShareOnePool(args: Args)
    ensures forall pass :: PassPlan(pass, 0, args).pool == Pool(false, args.cpuNumWorkers)
  {
  }

  /** Each pass's plan reads its own per-device worker setting only: changing another
      pass's setting leaves it unchanged. */
  lemma PlansAreIndependent(gpuCount: nat, args: Args, w: int)
    ensures PassPlan(Pitch, gpuCount, args.(workersPerGpuForSnr := w, workersPerGpuForSquim := w)) == PassPlan(Pitch, gpuCount, args)
    ensures PassPlan(Snr, gpuCount, args.(workersPerGpuForPitch := w, workersPerGpuForSquim := w)) == PassPlan(Snr, gpuCount, args)
    ensures PassPlan(Squim, gpuCount, args.(workersPerGpuForPitch := w, workersPerGpuForSnr := w)) == PassPlan(Squim, gpuCount, args)
  {
  }

  /** With the defaults, a device-capable pass runs one worker per device, or four CPU workers. */
  lemma DefaultPlans(pass: Pass, gpuCount: nat)
    requires pass != Rate
    ensures PassPlan(pass, gpuCount, DefaultArgs()).pool == (if gpuCount > 0 then Pool(true, gpuCount) else Pool(false, 4))
    ensures PassPlan(pass, gpuCount, DefaultArgs()).batching == Batched(2)
  {
  }
}

=== FILE: prompt.dfy ===
/** `prepare_prompt` of the annotation script: the six keyword fields of a row are
    substituted into the template, one placeholder after the other, and the result is
    stored in the row's `prompt` field. */
module PromptAssembly {
  import opened Wrappers
  import opened Text
  import opened Placeholders
  import opened PromptTemplate

  /** A field of a row: a string, or a value of another type (a number, `None`, a list). */
  datatype Field = Str(text: string) | NonStr

  /** A row, as the mapped function sees it. */
  type Example = map<string, Field>

  /** The field `prepare_prompt` writes. */
  const PromptKey: string := "prompt"

  /** What `prepare_prompt` can raise. */
  datatype PromptError =
    | MissingKey(key: string)   // KeyError: the row lacks a keyword field
    | NotAString(key: string)   // TypeError: `str.replace` was handed a non-string
    | UnboundLocalPrompt        // UnboundLocalError: `prompt` read before assignment

  /** The six keyword fields of `ex`, read in order; the first missing one raises. */
  function Lookup(ex: Example, keys: seq<string>): (r: Result<seq<Field>, PromptError>)
    ensures r.Success? <==> forall i | 0 <= i < |keys| :: keys[i] in ex
    ensures r.Success? ==> |r.value| == |keys| && forall i | 0 <= i < |keys| :: r.value[i] == ex[keys[i]]
    ensures r.Failure? ==> exists i | 0 <= i < |keys| ::
              && r.error == MissingKey(keys[i]) && keys[i] !in ex
              && forall j | 0 <= j < i :: keys[j] in ex
  {
    if |keys| == 0 then
      Success([])
    else if keys[0] !in ex then
      Failure(MissingKey(keys[0]))
    else
      var rest :- Lookup(ex, keys[1..]);
      Success([ex[keys[0]]] + rest)
  }

  /** The strings the replace calls receive; the first non-string raises, since the
      chain evaluates one call before the next. */
  function Texts(fields: seq<Field>, keys: seq<string>): (r: Result<seq<string>, PromptError>)
    requires |fields| == |keys|
    ensures r.Success? <==> forall i | 0 <= i < |fields| :: fields[i].Str?
    ensures r.Success? ==> |r.value| == |fields| && forall i | 0 <= i < |fields| :: r.value[i] == fields[i].text
    ensures r.Failure? ==> exists i | 0 <= i < |fields| ::
              && r.error == NotAString(keys[i]) && !fields[i].Str?
              && forall j | 0 <= j < i :: fields[j].Str?
  {
    if |fields| == 0 then
      Success([])
    else if !fields[0].Str? then
      Failure(NotAString(keys[0]))
    else
      var rest :- Texts(fields[1..], keys[1..]);
      Success([fields[0].text] + rest)
  }

  /** A row whose six keyword fields are all present strings. */
  predicate Fillable(ex: Example) {
    forall i | 0 <= i < |SlotNames| :: SlotNames[i] in ex && ex[SlotNames[i]].Str?
  }

  /** `prepare_prompt` as its authors evidently meant it, reading the template it is
      given: the six fields are substituted into `template` and the result becomes the
      row's `prompt` field; nothing else in the row changes. */
  function PreparePrompt(template: string, ex: Example): (r: Result<Example, PromptError>)
    ensures r.Success? <==> Fillable(ex)
    ensures r.Failure? ==> exists i | 0 <= i < |SlotNames| ::
              || (r.error == MissingKey(SlotNames[i]) && SlotNames[i] !in ex)
              || (r.error == NotAString(SlotNames[i]) && SlotNames[i] in ex && !ex[SlotNames[i]].Str?)
    ensures r.Success? ==>
              && r.value.Keys == ex.Keys + {PromptKey}
              && r.value[PromptKey].Str?
              && forall k | k in ex && k != PromptKey :: r.value[k] == ex[k]
  {
    var fields :- Lookup(ex, SlotNames);
    var values :- Texts(fields, SlotNames);
    Success(ex[PromptKey := Str(ReplaceEach(template, SlotNames, values))])
  }

  /** `prepare_prompt` as written: assigning `prompt` inside the function makes it a local
      name, so line 39 reads it before any assignment and raises once the six lookups
      have succeeded. */
  function PreparePromptAsWritten(ex: Example): (r: Result<Example, PromptError>)
    ensures r.Failure?
    ensures r.error == UnboundLocalPrompt <==> forall i | 0 <= i < |SlotNames| :: SlotNames[i] in ex
  {
    var fields :- Lookup(ex, SlotNames);
    Failure(UnboundLocalPrompt)
  }

  /** Every row the corrected function prompts, the function as written rejects. */
  lemma AsWrittenRejectsEveryRow(ex: Example)
    requires PreparePrompt(Template, ex).Success?
    ensures PreparePromptAsWritten(ex) == Failure(UnboundLocalPrompt)
  {
  }

  /** The literal pieces of a list of plain values. */
  function Lits(v: seq<Plain>): (qs: seq<Piece>)
    ensures |qs| == |v| && forall i | 0 <= i < |v| :: qs[i] == Lit(v[i])
  {
    seq(|v|, i requires 0 <= i < |v| => Lit(v[i]))
  }

  /** The template's text with the six keyword positions of its last line holding `v`. */
  function Filled(v: seq<string>): string
    requires |v| == |SlotNames|
  {
    Preamble + Opening + Join(v, Separator) + Closing
  }

  /** Line 39 with values that contain no `[`: each placeholder receives its own value,
      every line of the template but the last is untouched, and the last line lists the
      six values, quoted and separated by commas. */
  lemma ChainFillsLastLine(v: seq<Plain>)
    requires |v| == |SlotNames|
    ensures ReplaceEach(Template, SlotNames, v) == Filled(v)
  {
    SlotNamesDistinct();
    ChainFillsFrame(Preamble, SlotNames, v);
  }

  /** After line 39, with values that contain no `[`, no placeholder is left. */
  lemma NoPlaceholderLeft(v: seq<Plain>, name: FieldName)
    requires |v| == |SlotNames|
    ensures !Contains(ReplaceEach(Template, SlotNames, v), Token(name))
  {
    ChainFillsLastLine(v);
    FilledIsPlain(v);
    PlainHasNoToken(Filled(v), name);
  }

  lemma FilledIsPlain(v: seq<Plain>)
    requires |v| == |SlotNames|
    ensures '[' !in Filled(v)
  {
    JoinPlain(v, Separator);
    PlainAround(Preamble + Opening, Join(v, Separator), Closing);
  }

  /** The replacements run one after the other: a first value that spells the last
      field's placeholder (a speaker literally named `[pitch]`) is itself replaced by the
      last call, so the last value is written into the first position as well. Stated
      for any preamble and any distinct field names, the template's among them. */
  lemma ChainRenamesFrame(pre: Plain, names: seq<FieldName>, v: seq<string>)
    requires 1 < |names| == |v| && DistinctNames(names)
    requires v[0] == Token(names[|names| - 1])
    requires forall i | 1 <= i < |v| :: '[' !in v[i]
    ensures ReplaceEach(Render(Frame(pre, SlotsOf(names))), names, v) ==
              pre + Opening + Join([v[|v| - 1]] + v[1..], Separator) + Closing
  {
    var qs := RenamingPieces(names, v);
    ShowsRenaming(names, v);
    ChainOnFrame(pre, SlotsOf(names), names, qs);
    FillRenamed(names, qs);
    RenderFrame(pre, [qs[|qs| - 1]] + qs[1..]);
  }

  /** The values of a renaming chain as pieces: the last field's placeholder, then literals. */
  function RenamingPieces(names: seq<FieldName>, v: seq<string>): (qs: seq<Piece>)
    requires 1 < |names| == |v|
    requires forall i | 1 <= i < |v| :: '[' !in v[i]
    ensures |qs| == |v| && qs[0] == Slot(names[|names| - 1])
    ensures forall i | 1 <= i < |qs| :: qs[i].Lit? && qs[i].text == v[i]
  {
    var ws: seq<Plain> := seq(|v| - 1, i requires 0 <= i < |v| - 1 => v[i + 1]);
    [Slot(names[|names| - 1])] + Lits(ws)
  }

  /** The texts of the renaming pieces are the values, before and after the last one
      moves to the front. */
  lemma ShowsRenaming(names: seq<FieldName>, v: seq<string>)
    requires 1 < |names| == |v|
    requires v[0] == Token(names[|names| - 1])
    requires forall i | 1 <= i < |v| :: '[' !in v[i]
    ensures Shows(RenamingPieces(names, v)) == v
    ensures Shows([RenamingPieces(names, v)[|v| - 1]] + RenamingPieces(names, v)[1..]) == [v[|v| - 1]] + v[1..]
  {
    var qs := RenamingPieces(names, v);
    forall i | 0 <= i < |v| ensures Shows(qs)[i] == v[i] {
      if i > 0 { assert Show(qs[i]) == v[i]; }
    }
    var rs := [qs[|v| - 1]] + qs[1..];
    var ts := [v[|v| - 1]] + v[1..];
    forall i | 0 <= i < |v| ensures Shows(rs)[i] == ts[i] {
      if i == 0 { assert rs[0] == qs[|v| - 1]; } else { assert rs[i] == qs[i]; }
    }
  }

  /** The six keyword values of a row whose keyword fields are all strings. */
  function Values(ex: Example): (v: seq<string>)
    requires Fillable(ex)
    ensures |v| == |SlotNames| && forall i | 0 <= i < |SlotNames| :: v[i] == ex[SlotNames[i]].text
  {
    seq(|SlotNames|, i requires 0 <= i < |SlotNames| && Fillable(ex) => ex[SlotNames[i]].text)
  }

  /** On a row whose keyword fields are strings, `prepare_prompt` stores the chain of
      replacements applied to the template, with the row's values in field order. */
  lemma PrepareRunsChain(template: string, ex: Example)
    requires Fillable(ex)
    ensures PreparePrompt(template, ex) == Success(ex[PromptKey := Str(ReplaceEach(template, SlotNames, Values(ex)))])
  {
    var fields := Lookup(ex, SlotNames);
    var values := Texts(fields.value, SlotNames);
    assert values.value == Values(ex);
  }

  /** On a row whose keyword values contain no `[`, the prompt is the template with the
      values in its last line. */
  lemma PrepareFillsTemplate(ex: Example, v: seq<Plain>)
    requires Fillable(ex) && v == Values(ex)
    ensures PreparePrompt(Template, ex) == Success(ex[PromptKey := Str(Filled(v))])
  {
    PrepareRunsChain(Template, ex);
    ChainFillsLastLine(v);
  }

  /** Each of the six placeholders occurs exactly once in the template. */
  lemma EachPlaceholderOnce(k: nat)
    requires k < |SlotNames|
    ensures Count(Template, Token(SlotNames[k])) == 1
  {
    SlotNamesDistinct();
    PlaceholderOnceInFrame(Preamble, SlotNames, k);
  }

  lemma PlaceholderOnceInFrame(pre: Plain, names: seq<FieldName>, k: nat)
    requires k < |names| && DistinctNames(names)
    ensures Count(Render(Frame(pre, SlotsOf(names))), Token(names[k])) == 1
  {
    CountSlot(Frame(pre, SlotsOf(names)), names[k]);
    SlotsFrame(pre, SlotsOf(names), names[k]);
    SlotsOfDistinct(names, k);
  }

  lemma ChainFillsFrame(pre: Plain, names: seq<FieldName>, v: seq<Plain>)
    requires 0 < |names| == |v|
    requires DistinctNames(names)
    ensures ReplaceEach(Render(Frame(pre, SlotsOf(names))), names, v) == pre + Opening + Join(v, Separator) + Closing
  {
    var qs := Lits(v);
    assert Shows(qs) == v;
    ChainOnFrame(pre, SlotsOf(names), names, qs);
    FillLiterals(names, qs);
    RenderFrame(pre, qs);
  }

  /** A chain of replacements on the rendered template is the rendered template with its
      keyword positions filled. */
  lemma ChainOnFrame(pre: Plain, xs: seq<Piece>, names: seq<FieldName>, qs: seq<Piece>)
    requires |xs| > 0 && |names| == |qs|
    ensures |FillEach(xs, names, qs)| == |xs|
    ensures ReplaceEach(Render(Frame(pre, xs)), names, Shows(qs)) == Render(Frame(pre, FillEach(xs, names, qs)))
  {
    ReplaceEachSlot(Frame(pre, xs), names, qs);
    FillEachFrame(pre, xs, names, qs);
  }
}

=== FILE: script.dfy ===
/** The top level of the annotation script: the file names it derives from the dataset
    name, the annotation loop, and `main` (optional test subset, cached or recomputed
    prompts, one caption per prompt, the caption column added). */
module AnnotationScript {
  import opened Wrappers
  import opened Text
  import opened Tables
  import opened PromptAssembly
  import opened AnnotationClient

  // ---------------------------------------------------------------------------
  // Names

  /** `name.split("/")[-1]`: the text after the last `/`, or all of `name`. */
  function LastSegment(name: string): (r: string)
    ensures |r| <= |name| && r == name[|name| - |r|..]
    ensures '/' !in r
    ensures |r| < |name| ==> name[|name| - |r| - 1] == '/'
  {
    if |name| == 0 then []
    else if name[|name| - 1] == '/' then []
    else LastSegment(name[..|name| - 1]) + [name[|name| - 1]]
  }

  /** The last segment is the only suffix without `/` that is all of the name or follows a `/`. */
  lemma {:induction false} LastSegmentUnique(name: string, r: string)
    requires |r| <= |name| && r == name[|name| - |r|..] && '/' !in r
    requires |r| < |name| ==> name[|name| - |r| - 1] == '/'
    ensures r == LastSegment(name)
  {
    if |name| > 0 && name[|name| - 1] != '/' {
      var init := name[..|name| - 1];
      assert |r| > 0;
      var q := r[..|r| - 1];
      assert r == q + [name[|name| - 1]];
      assert q == init[|init| - |q|..];
      assert |q| < |init| ==> init[|init| - |q| - 1] == '/' by {
        if |q| < |init| { assert init[|init| - |q| - 1] == name[|name| - |r| - 1]; }
      }
      assert '/' !in q by {
        forall k | 0 <= k < |q| ensures q[k] != '/' { assert q[k] == r[k]; }
      }
      LastSegmentUnique(init, q);
    }
  }

  /** The prompt cache. The dataset itself is looked for on disk under `LastSegment(name)`. */
  function CachePath(name: string): string {
    LastSegment(name) + "_cached.parquet"
  }

  /** Where `main` saves the annotated dataset. */
  function OutputPath(name: string): (p: string)
    ensures p == LastSegment(name) + "+annotated"
  {
    LastSegment(name) + "+annotated"
  }

  /** The three files `main` touches are distinct: the annotated dataset never overwrites
      the source dataset on disk or the prompt cache. */
  lemma PathsDiffer(name: string)
    ensures CachePath(name) != OutputPath(name)
    ensures OutputPath(name) != LastSegment(name) && CachePath(name) != LastSegment(name)
  {
    var s := LastSegment(name);
    assert CachePath(name)[|s|] == '_' != '+' == OutputPath(name)[|s|];
  }

  /** Two dataset names are saved to the same place exactly when they end in the same
      segment: `org/ds` and `ds` overwrite each other's output. */
  lemma OutputPathsCollide(a: string, b: string)
    ensures OutputPath(a) == OutputPath(b) <==> LastSegment(a) == LastSegment(b)
  {
    if OutputPath(a) == OutputPath(b) {
      var sa, sb := LastSegment(a), LastSegment(b);
      assert |sa| == |sb|;
      assert sa == OutputPath(a)[..|sa|];
      assert sb == OutputPath(b)[..|sb|];
    }
  }

  /** A hub name `org/ds` is read from and saved next to `ds`. */
  lemma HubNamePaths()
    ensures LastSegment("org/ds") == "ds"
    ensures OutputPath("org/ds") == "ds+annotated"
  {
    LastSegmentUnique("org/ds", "ds");
  }

  // ---------------------------------------------------------------------------
  // The annotation loop

  /** `xs.count(x)`. */
  function Occurrences(xs: seq<string>, x: string): (n: nat)
    ensures n <= |xs|
  {
    if |xs| == 0 then 0 else (if xs[0] == x then 1 else 0) + Occurrences(xs[1..], x)
  }

  lemma {:induction false} OccurrencesSnoc(xs: seq<string>, y: string, x: string)
    ensures Occurrences(xs + [y], x) == Occurrences(xs, x) + (if y == x then 1 else 0)
  {
    if |xs| > 0 {
      assert (xs + [y])[1..] == xs[1..] + [y];
      OccurrencesSnoc(xs[1..], y, x);
    } else {
      assert xs + [y] == [y];
    }
  }

  /** The captions of a run of requests, in order; the first exception aborts the run. */
  function Annotate(url: string, replies: seq<Outcome>): (r: Result<seq<string>, SendError>)
    ensures r.Success? <==> forall i | 0 <= i < |replies| :: Infer(url, replies[i]).Success?
    ensures r.Success? ==> |r.value| == |replies|
    ensures r.Success? ==> forall i | 0 <= i < |replies| :: r.value[i] == Infer(url, replies[i]).value
  {
    if |replies| == 0 then
      Success([])
    else
      var t :- Infer(url, replies[0]);
      var rest :- Annotate(url, replies[1..]);
      Success([t] + rest)
  }

  /** The run fails with the exception of the first request that raises. */
  lemma {:induction false} AnnotateStopsAtFirstRaise(url: string, replies: seq<Outcome>, i: nat)
    requires i < |replies| && Infer(url, replies[i]).Failure?
    requires forall j | 0 <= j < i :: Infer(url, replies[j]).Success?
    ensures Annotate(url, replies) == Failure(Infer(url, replies[i]).error)
  {
    if i > 0 {
      AnnotateStopsAtFirstRaise(url, replies[1..], i - 1);
    }
  }

  /** The captions and the number of placeholders among them. */
  datatype Annotated = Annotated(texts: seq<string>, fails: nat)

  /** Lines 105-110: one `infer` call per prompt, in order, then the placeholders counted. */
  method AnnotateAll(url: string, replies: seq<Outcome>) returns (r: Result<Annotated, SendError>)
    ensures r.Success? <==> Annotate(url, replies).Success?
    ensures r.Success? ==> r.value.texts == Annotate(url, replies).value
    ensures r.Success? ==> r.value.fails == Occurrences(r.value.texts, Placeholder)
    ensures r.Failure? ==> r == Failure(Annotate(url, replies).error)
  {
    var texts: seq<string> := [];
    var i := 0;
    while i < |replies|
      invariant 0 <= i <= |replies| && |texts| == i
      invariant forall j | 0 <= j < i :: Infer(url, replies[j]).Success? && texts[j] == Infer(url, replies[j]).value
    {
      var t := Infer(url, replies[i]);
      if t.Failure? {
        AnnotateStopsAtFirstRaise(url, replies, i);
        return Failure(t.error);
      }
      texts := texts + [t.value];
      i := i + 1;
    }
    var fails := CountOf(texts, Placeholder);
    return Success(Annotated(texts, fails));
  }

  /** `xs.count(x)`, counted in one pass. */
  method CountOf(xs: seq<string>, x: string) returns (n: nat)
    ensures n == Occurrences(xs, x)
  {
    n := 0;
    var k := 0;
    while k < |xs|
      invariant 0 <= k <= |xs| && n == Occurrences(xs[..k], x)
    {
      assert xs[..k + 1] == xs[..k] + [xs[k]];
      OccurrencesSnoc(xs[..k], xs[k], x);
      if xs[k] == x {
        n := n + 1;
      }
      k := k + 1;
    }
    assert xs[..k] == xs;
  }

  /** Requests `_send` returned nothing for: refused with a non-retryable status, or
      answered with a `null` body. */
  function Dropped(url: string, replies: seq<Outcome>): nat {
    if |replies| == 0 then 0
    else (if NoReply(url, replies[0]) then 1 else 0) + Dropped(url, replies[1..])
  }

  /** Answered requests whose caption happens to read `<placeholder>`. */
  function Echoed(url: string, replies: seq<Outcome>): nat {
    if |replies| == 0 then 0
    else (if !NoReply(url, replies[0]) && Infer(url, replies[0]) == Success(Placeholder) then 1 else 0)
         + Echoed(url, replies[1..])
  }

  /** The printed failure count is the number of requests that got no reply, plus any
      caption that is literally the placeholder text: it never undercounts them. */
  lemma {:induction false} FailsCountsRefusals(url: string, replies: seq<Outcome>)
    requires Annotate(url, replies).Success?
    ensures Occurrences(Annotate(url, replies).value, Placeholder) == Dropped(url, replies) + Echoed(url, replies)
  {
    if |replies| > 0 {
      FailsCountsRefusals(url, replies[1..]);
      assert Annotate(url, replies).value[1..] == Annotate(url, replies[1..]).value;
    }
  }

  // ---------------------------------------------------------------------------
  // main

  /** The rows of a dataset whose cells are row fields. */
  function Row(t: Dataset<Field>, i: nat): Example
    requires i < t.rows
  {
    map c | c in t.columns :: t.columns[c][i]
  }

  function Rows(t: Dataset<Field>): (rows: seq<Example>)
    ensures |rows| == t.rows && forall i | 0 <= i < t.rows :: rows[i] == Row(t, i)
  {
    seq(t.rows, i requires 0 <= i < t.rows => Row(t, i))
  }

  /** `ds.map(prepare_prompt)` read back as the prompt column; the first failing row aborts. */
  function Prompts(template: string, rows: seq<Example>): (r: Result<seq<string>, PromptError>)
    ensures r.Success? <==> forall i | 0 <= i < |rows| :: PreparePrompt(template, rows[i]).Success?
    ensures r.Success? ==> |r.value| == |rows|
    ensures r.Success? ==>
              forall i | 0 <= i < |rows| :: PreparePrompt(template, rows[i]).value[PromptKey] == Str(r.value[i])
  {
    if |rows| == 0 then
      Success([])
    else
      var ex :- PreparePrompt(template, rows[0]);
      var rest :- Prompts(template, rows[1..]);
      Success([ex[PromptKey].text] + rest)
  }

  /** A column of strings. */
  function Strs(xs: seq<string>): (c: seq<Field>)
    ensures |c| == |xs| && forall i | 0 <= i < |xs| :: c[i] == Str(xs[i])
  {
    seq(|xs|, i requires 0 <= i < |xs| => Str(xs[i]))
  }

  /** Writing the prompt column is the same as mapping `prepare_prompt` over the rows:
      each row of the result is the prepared row. */
  lemma MapPreparesEachRow(template: string, t: Dataset<Field>, ps: seq<string>, u: Dataset<Field>)
    requires Prompts(template, Rows(t)) == Success(ps)
    requires SetColumn(t, PromptKey, Strs(ps)) == Success(u)
    ensures u.rows == t.rows
    ensures forall i | 0 <= i < t.rows :: PreparePrompt(template, Row(t, i)) == Success(Row(u, i))
  {
    forall i | 0 <= i < t.rows ensures PreparePrompt(template, Row(t, i)) == Success(Row(u, i)) {
      assert Rows(t)[i] == Row(t, i);
      PrepareRunsChain(template, Row(t, i));
      RowAfterSet(t, PromptKey, Strs(ps), u, i);
    }
  }

  /** Setting a column changes that one field of each row. */
  lemma RowAfterSet(t: Dataset<Field>, name: string, col: seq<Field>, u: Dataset<Field>, i: nat)
    requires i < t.rows == u.rows == |col| && u.columns == t.columns[name := col]
    ensures Row(u, i) == Row(t, i)[name := col[i]]
  {
  }

  /** What `main` can raise. */
  datatype ScriptError =
    | PromptFailed(prompt: PromptError)
    | InferFailed(send: SendError)
    | TableFailed(table: TableError)

  /** The rows `--test` keeps. */
  const TestRows: nat := 100

  /** The caption column's name. */
  const AnnotationColumn: string := "annotation"

  /** What a successful `main` produces: the prompts it annotated, the prompt cache it
      wrote (when it recomputed the prompts), the failure count it printed, and the
      dataset it saved with the place it saved it to. */
  datatype Run = Run(prompts: seq<string>, cacheWritten: Option<seq<string>>, fails: nat,
                     saved: Dataset<Field>, savedTo: string)

  /** `main(ds_name, model, test)` on an already loaded dataset. `cached` is the prompt
      column of the cache file when it can be read; `answer(i)` is what the server does
      with the i-th request; `template` is the prompt template. */
  function RunScript(name: string, template: string, ds: Dataset<Field>, test: bool,
                     cached: Option<seq<string>>, url: string, answer: nat -> Outcome): (r: Result<Run, ScriptError>)
    ensures r.Success? ==> r.value.savedTo == OutputPath(name)
    ensures test && 0 < ds.rows < TestRows ==> r == Failure(TableFailed(IndexOutOfRange(TestRows - 1, ds.rows)))
    ensures r.Success? ==> r.value.saved.rows == (if test && ds.rows > 0 then TestRows else ds.rows)
    ensures r.Success? ==> (r.value.cacheWritten.Some? <==> cached.None?)
    ensures r.Success? && cached.Some? ==> r.value.prompts == cached.value
  {
    var base :- Subset(ds, test);
    var stage :- PromptStage(template, base, cached);
    Finish(name, stage, url, answer)
  }

  /** The outcomes of the first `n` requests. */
  function Replies(answer: nat -> Outcome, n: nat): (rs: seq<Outcome>)
    ensures |rs| == n && forall i | 0 <= i < n :: rs[i] == answer(i)
  {
    seq(n, i requires 0 <= i < n => answer(i))
  }

  /** Lines 93-94: with `--test`, the first 100 rows; an empty dataset is kept as it is,
      and a non-empty one with fewer rows raises. */
  function Subset(ds: Dataset<Field>, test: bool): (r: Result<Dataset<Field>, ScriptError>)
    ensures !test ==> r == Success(ds)
    ensures test ==> (r.Success? <==> ds.rows == 0 || TestRows <= ds.rows)
    ensures r.Failure? ==> r.error == TableFailed(IndexOutOfRange(TestRows - 1, ds.rows))
    ensures ds.rows == 0 ==> r == Success(ds)
    ensures test && r.Success? && ds.rows > 0 ==>
              && r.value.names == ds.names
              && r.value.rows == TestRows
              && forall c | c in ds.columns :: r.value.columns[c] == ds.columns[c][..TestRows]
  {
    if test then SelectFirst(ds, TestRows).MapFailure(e => TableFailed(e)) else Success(ds)
  }

  /** The dataset annotation starts from, the prompts it sends, and the prompts written
      to the cache, if any. */
  datatype Stage = Stage(mapped: Dataset<Field>, prompts: seq<string>, written: Option<seq<string>>)

  /** Lines 96-103: the cached prompts when the cache can be read, leaving the dataset as
      it is; otherwise the prompts are computed by mapping `prepare_prompt`, which adds the
      prompt column, and written to the cache. The library's `map` hands an empty dataset
      back without calling the function, so reading its prompt column then raises unless
      the column was already there. */
  function PromptStage(template: string, t: Dataset<Field>, cached: Option<seq<string>>): (r: Result<Stage, ScriptError>)
    ensures cached.Some? ==> r == Success(Stage(t, cached.value, None))
    ensures cached.None? && t.rows > 0 ==> (r.Success? <==> Prompts(template, Rows(t)).Success?)
    ensures cached.None? && t.rows == 0 ==> (r.Success? <==> PromptKey in t.names)
    ensures cached.None? && t.rows == 0 && r.Failure? ==> r.error == TableFailed(MissingColumn(PromptKey))
    ensures cached.None? && r.Success? ==>
              && r.value.prompts == Prompts(template, Rows(t)).value
              && r.value.written == Some(r.value.prompts)
              && |r.value.prompts| == t.rows
    ensures cached.None? && t.rows > 0 && r.Success? ==>
              SetColumn(t, PromptKey, Strs(r.value.prompts)) == Success(r.value.mapped)
    ensures cached.None? && t.rows == 0 && r.Success? ==> r.value.mapped == t
  {
    if cached.Some? then
      Success(Stage(t, cached.value, None))
    else if t.rows == 0 then
      match Column(t, PromptKey)
      case Failure(e) => Failure(TableFailed(e))
      case Success(_) => Success(Stage(t, [], Some([])))
    else
      var ps :- Prompts(template, Rows(t)).MapFailure(e => PromptFailed(e));
      match SetColumn(t, PromptKey, Strs(ps))
      case Success(mapped) => Success(Stage(mapped, ps, Some(ps)))
      case Failure(e) => Failure(TableFailed(e))
  }

  /** Lines 105-113: one caption per prompt, added as a new column of the dataset, which
      is saved under the output name. */
  function Finish(name: string, stage: Stage, url: string, answer: nat -> Outcome): (r: Result<Run, ScriptError>)
    ensures var texts := Annotate(url, Replies(answer, |stage.prompts|));
            && (texts.Failure? ==> r == Failure(InferFailed(texts.error)))
            && (texts.Success? && AnnotationColumn in stage.mapped.names ==>
                  r == Failure(TableFailed(DuplicateColumn(AnnotationColumn))))
            && (texts.Success? && AnnotationColumn !in stage.mapped.names && |stage.prompts| != stage.mapped.rows ==>
                  r == Failure(TableFailed(LengthMismatch(AnnotationColumn, stage.mapped.rows, |stage.prompts|))))
    ensures r.Success? ==>
              var texts := Annotate(url, Replies(answer, |stage.prompts|)).value;
              && r.value.prompts == stage.prompts && r.value.cacheWritten == stage.written
              && r.value.fails == Occurrences(texts, Placeholder)
              && r.value.saved.names == stage.mapped.names + [AnnotationColumn]
              && r.value.saved.rows == stage.mapped.rows == |stage.prompts|
              && r.value.saved.columns[AnnotationColumn] == Strs(texts)
              && (forall c | c in stage.mapped.columns :: r.value.saved.columns[c] == stage.mapped.columns[c])
              && r.value.savedTo == OutputPath(name)
  {
    var texts :- Annotate(url, Replies(answer, |stage.prompts|)).MapFailure(e => InferFailed(e));
    var saved :- AddColumn(stage.mapped, AnnotationColumn, Strs(texts)).MapFailure(e => TableFailed(e));
    Success(Run(stage.prompts, stage.written, Occurrences(texts, Placeholder), saved, OutputPath(name)))
  }

  /** A successful run saves one caption per prompt, the i-th being what `infer` made of
      the i-th request, and prints the number of refused requests (plus any caption that
      reads like the placeholder) as its failure count. */
  lemma RunCaptionsEachPrompt(name: string, template: string, ds: Dataset<Field>, test: bool,
                              cached: Option<seq<string>>, url: string, answer: nat -> Outcome)
    requires RunScript(name, template, ds, test, cached, url, answer).Success?
    ensures var run := RunScript(name, template, ds, test, cached, url, answer).value;
            && run.saved.rows == |run.prompts|
            && AnnotationColumn in run.saved.columns
            && (forall i | 0 <= i < |run.prompts| ::
                  Infer(url, answer(i)).Success? &&
                  run.saved.columns[AnnotationColumn][i] == Str(Infer(url, answer(i)).value))
            && run.fails == Dropped(url, Replies(answer, |run.prompts|)) + Echoed(url, Replies(answer, |run.prompts|))
  {
    var base := Subset(ds, test).value;
    var stage := PromptStage(template, base, cached).value;
    assert RunScript(name, template, ds, test, cached, url, answer) == Finish(name, stage, url, answer);
    FinishCaptions(name, stage, url, answer);
  }

  /** The caption facts of a run, stated for the annotation and saving step alone. */
  lemma FinishCaptions(name: string, stage: Stage, url: string, answer: nat -> Outcome)
    requires Finish(name, stage, url, answer).Success?
    ensures var run := Finish(name, stage, url, answer).value;
            && run.saved.rows == |run.prompts|
            && AnnotationColumn in run.saved.columns
            && (forall i | 0 <= i < |run.prompts| ::
                  Infer(url, answer(i)).Success? &&
                  run.saved.columns[AnnotationColumn][i] == Str(Infer(url, answer(i)).value))
            && run.fails == Dropped(url, Replies(answer, |run.prompts|)) + Echoed(url, Replies(answer, |run.prompts|))
  {
    var run := Finish(name, stage, url, answer).value;
    var replies := Replies(answer, |stage.prompts|);
    var texts := Annotate(url, replies).value;
    assert run.saved.columns[AnnotationColumn] == Strs(texts);
    forall i | 0 <= i < |run.prompts|
      ensures Infer(url, answer(i)).Success?
      ensures run.saved.columns[AnnotationColumn][i] == Str(Infer(url, answer(i)).value)
    {
      assert replies[i] == answer(i);
      assert texts[i] == Infer(url, replies[i]).value;
    }
    FailsCountsRefusals(url, replies);
  }

  /** Without a cache, an empty dataset that has no prompt column fails reading the prompt
      column back: `map` returns the empty dataset without calling `prepare_prompt`. */
  lemma EmptyUncachedRunFails(name: string, template: string, ds: Dataset<Field>, test: bool,
                              url: string, answer: nat -> Outcome)
    requires ds.rows == 0 && PromptKey !in ds.names
    ensures RunScript(name, template, ds, test, None, url, answer) == Failure(TableFailed(MissingColumn(PromptKey)))
  {
  }

  /** With the prompts read from the cache, the dataset is not mapped: the saved dataset
      has the loaded columns and the caption column, and no prompt column is added. */
  lemma CachedRunAddsOnlyCaptions(name: string, template: string, ds: Dataset<Field>, test: bool,
                                  prompts: seq<string>, url: string, answer: nat -> Outcome)
    requires RunScript(name, template, ds, test, Some(prompts), url, answer).Success?
    ensures RunScript(name, template, ds, test, Some(prompts), url, answer).value.saved.names == ds.names + [AnnotationColumn]
  {
  }

  /** Without a cache, the saved dataset also holds the prompt column `prepare_prompt`
      wrote, and the cache receives exactly those prompts. */
  lemma UncachedRunKeepsPrompts(name: string, template: string, ds: Dataset<Field>, test: bool,
                                url: string, answer: nat -> Outcome)
    requires RunScript(name, template, ds, test, None, url, answer).Success?
    ensures var run := RunScript(name, template, ds, test, None, url, answer).value;
            && run.cacheWritten == Some(run.prompts)
            && PromptKey in run.saved.columns
            && run.saved.columns[PromptKey] == Strs(run.prompts)
            && run.saved.names == (if PromptKey in ds.names then ds.names else ds.names + [PromptKey]) + [AnnotationColumn]
  {
    var base := Subset(ds, test).value;
    assert base.names == ds.names;
  }

  /** A stale cache whose length differs from the dataset's (say, one written by a
      `--test` run and read by a full one) is only noticed by `add_column`, after every
      request has been sent. */
  lemma StaleCacheFailsLate(name: string, template: string, ds: Dataset<Field>,
                            prompts: seq<string>, url: string, answer: nat -> Outcome)
    requires |prompts| != ds.rows && AnnotationColumn !in ds.names
    requires Annotate(url, Replies(answer, |prompts|)).Success?
    ensures RunScript(name, template, ds, false, Some(prompts), url, answer) ==
              Failure(TableFailed(LengthMismatch(AnnotationColumn, ds.rows, |prompts|)))
  {
  }

  /** Running again with the cache a first run wrote sends the same prompts and saves
      the same captions, under the same name. */
  lemma RerunFromCache(name: string, template: string, ds: Dataset<Field>, test: bool,
                       url: string, answer: nat -> Outcome)
    requires RunScript(name, template, ds, test, None, url, answer).Success?
    requires AnnotationColumn !in ds.names
    ensures var first := RunScript(name, template, ds, test, None, url, answer).value;
            var again := RunScript(name, template, ds, test, first.cacheWritten, url, answer);
            && again.Success?
            && again.value.prompts == first.prompts
            && again.value.fails == first.fails
            && again.value.saved.columns[AnnotationColumn] == first.saved.columns[AnnotationColumn]
            && again.value.savedTo == first.savedTo
  {
    var base := Subset(ds, test).value;
    assert base.names == ds.names;
    var stage := PromptStage(template, base, None).value;
    assert RunScript(name, template, ds, test, None, url, answer) == Finish(name, stage, url, answer);
    var cache := Stage(base, stage.prompts, None);
    assert PromptStage(template, base, Some(stage.prompts)) == Success(cache);
    assert RunScript(name, template, ds, test, Some(stage.prompts), url, answer) == Finish(name, cache, url, answer);
    FinishSamePrompts(name, stage, cache, url, answer);
  }

  /** Two stages with the same prompts and row count give the same captions. */
  lemma FinishSamePrompts(name: string, s: Stage, u: Stage, url: string, answer: nat -> Outcome)
    requires Finish(name, s, url, answer).Success?
    requires u.prompts == s.prompts && u.mapped.rows == s.mapped.rows && AnnotationColumn !in u.mapped.names
    ensures Finish(name, u, url, answer).Success?
    ensures Finish(name, u, url, answer).value.fails == Finish(name, s, url, answer).value.fails
    ensures Finish(name, u, url, answer).value.saved.columns[AnnotationColumn] ==
              Finish(name, s, url, answer).value.saved.columns[AnnotationColumn]
  {
  }
}

=== FILE: tables.dfy ===
/** A columnar dataset (the library's `Dataset`) and a named split collection
    (its `DatasetDict`): the only containers the pipeline manipulates. */
module Tables {
  import opened Wrappers

  predicate Distinct<T(==)>(s: seq<T>) {
    forall i, j | 0 <= i < j < |s| :: s[i] != s[j]
  }

  lemma DistinctCons<T>(x: T, s: seq<T>)
    ensures Distinct([x] + s) <==> x !in s && Distinct(s)
  {
    var t := [x] + s;
    assert forall i | 0 <= i < |s| :: t[i + 1] == s[i];
    if Distinct(t) {
      forall i | 0 <= i < |s| ensures s[i] != x {
        assert t[0] != t[i + 1];
      }
      forall i, j | 0 <= i < j < |s| ensures s[i] != s[j] {
        assert t[i + 1] != t[j + 1];
      }
    }
  }

  /** Ordered column names, one value sequence per column, and a row count. */
  datatype Table<V> = Table(names: seq<string>, columns: map<string, seq<V>>, rows: nat) {
    predicate Valid() {
      && Distinct(names)
      && columns.Keys == (set n | n in names)
      && forall n | n in columns :: |columns[n]| == rows
    }
  }

  /** Every dataset is rectangular: each named column holds one value per row. */
  type Dataset<V> = t: Table<V> | t.Valid() witness Table([], map[], 0)

  /** What the library raises on a column operation. */
  datatype TableError =
    | MissingColumn(name: string)                           // KeyError
    | DuplicateColumn(name: string)                         // ValueError: duplicated column
    | LengthMismatch(name: string, expected: nat, actual: nat)  // ValueError: row counts differ
    | IndexOutOfRange(index: nat, size: nat)                // IndexError from `select`
    | UnknownRenameSource(names: set<string>)               // ValueError from `rename_columns`
    | RenameCollision                                       // two columns end up with one name

  /** `t[name]`. */
  function Column<V>(t: Dataset<V>, name: string): (r: Result<seq<V>, TableError>)
    ensures r.Success? <==> name in t.names
    ensures r.Success? ==> |r.value| == t.rows && r.value == t.columns[name]
    ensures r.Failure? ==> r.error == MissingColumn(name)
  {
    if name in t.columns then Success(t.columns[name]) else Failure(MissingColumn(name))
  }

  /** `t.add_column(name, values)`: the name must be new and the column must have one value per row. */
  function AddColumn<V>(t: Dataset<V>, name: string, values: seq<V>): (r: Result<Dataset<V>, TableError>)
    ensures r.Success? <==> name !in t.names && |values| == t.rows
    ensures name in t.names ==> r == Failure(DuplicateColumn(name))
    ensures name !in t.names && |values| != t.rows ==> r == Failure(LengthMismatch(name, t.rows, |values|))
    ensures r.Success? ==>
              && r.value.names == t.names + [name]
              && r.value.rows == t.rows
              && r.value.columns[name] == values
              && forall c | c in t.columns :: r.value.columns[c] == t.columns[c]
  {
    if name in t.columns then
      Failure(DuplicateColumn(name))
    else if |values| != t.rows then
      Failure(LengthMismatch(name, t.rows, |values|))
    else
      var u := Table(t.names + [name], t.columns[name := values], t.rows);
      assert u.columns.Keys == (set n | n in u.names);
      Success(u)
  }

  /** Writes column `name`: replaced in place when it exists, appended otherwise
      (what `map` does with a key the mapped function sets). */
  function SetColumn<V>(t: Dataset<V>, name: string, values: seq<V>): (r: Result<Dataset<V>, TableError>)
    ensures r.Success? <==> |values| == t.rows
    ensures r.Success? ==>
              && r.value.names == (if name in t.names then t.names else t.names + [name])
              && r.value.rows == t.rows
              && r.value.columns == t.columns[name := values]
  {
    if |values| != t.rows then
      Failure(LengthMismatch(name, t.rows, |values|))
    else if name in t.columns then
      var u := Table(t.names, t.columns[name := values], t.rows);
      assert u.columns.Keys == (set n | n in u.names);
      Success(u)
    else
      AddColumn(t, name, values)
  }

  /** `t.select(range(n))`: the first `n` rows; asking for more rows than exist raises,
      except that the library hands an empty dataset back unchanged before looking at
      the indices. */
  function SelectFirst<V>(t: Dataset<V>, n: nat): (r: Result<Dataset<V>, TableError>)
    ensures r.Success? <==> n <= t.rows || t.rows == 0
    ensures r.Failure? ==> r.error == IndexOutOfRange(n - 1, t.rows)
    ensures t.rows == 0 ==> r == Success(t)
    ensures r.Success? && t.rows > 0 ==>
              && r.value.names == t.names
              && r.value.rows == n
              && forall c | c in t.columns :: r.value.columns[c] == t.columns[c][..n]
  {
    if t.rows == 0 then
      Success(t)
    else if n > t.rows then
      Failure(IndexOutOfRange(n - 1, t.rows))
    else
      var u := Table(t.names, map c | c in t.columns :: t.columns[c][..n], n);
      assert u.columns.Keys == (set c | c in u.names);
      Success(u)
  }

  /** The name column `c` carries after renaming with `mapping`. */
  function Renamed(mapping: map<string, string>, c: string): string {
    if c in mapping then mapping[c] else c
  }

  predicate Injective(mapping: map<string, string>) {
    forall a, b | a in mapping && b in mapping && a != b :: mapping[a] != mapping[b]
  }

  /** The column names of `names` after renaming with `mapping`, position by position. */
  function RenamedNames(names: seq<string>, mapping: map<string, string>): (r: seq<string>)
    ensures |r| == |names|
    ensures forall i | 0 <= i < |names| :: r[i] == Renamed(mapping, names[i])
  {
    seq(|names|, i requires 0 <= i < |names| => Renamed(mapping, names[i]))
  }

  /** `t.rename_columns(mapping)`: every source name must exist and no two may share a target. */
  function RenameColumns<V>(t: Dataset<V>, mapping: map<string, string>): (r: Result<Dataset<V>, TableError>)
    ensures r.Success? <==>
              && mapping.Keys <= (set n | n in t.names)
              && Injective(mapping)
              && Distinct(RenamedNames(t.names, mapping))
    ensures r.Success? ==>
              && r.value.names == RenamedNames(t.names, mapping)
              && r.value.rows == t.rows
              && forall c | c in t.columns :: r.value.columns[Renamed(mapping, c)] == t.columns[c]
  {
    if !(mapping.Keys <= (set n | n in t.names)) then
      Failure(UnknownRenameSource(mapping.Keys - (set n | n in t.names)))
    else if !Injective(mapping) then
      Failure(RenameCollision)
    else if !Distinct(RenamedNames(t.names, mapping)) then
      Failure(RenameCollision)
    else
      Success(Relabel(t, mapping))
  }

  /** Relabels the columns of `t`, which is well defined when no two names collide. */
  function Relabel<V>(t: Dataset<V>, mapping: map<string, string>): (u: Dataset<V>)
    requires Distinct(RenamedNames(t.names, mapping))
    ensures u.names == RenamedNames(t.names, mapping) && u.rows == t.rows
    ensures forall c | c in t.columns :: u.columns[Renamed(mapping, c)] == t.columns[c]
  {
    Table(RenamedNames(t.names, mapping), RelabelColumns(t, mapping), t.rows)
  }

  /** The columns of `t` under their new names. */
  function RelabelColumns<V>(t: Dataset<V>, mapping: map<string, string>): (cols: map<string, seq<V>>)
    requires Distinct(RenamedNames(t.names, mapping))
    ensures cols.Keys == (set n | n in RenamedNames(t.names, mapping))
    ensures forall c | c in t.columns :: cols[Renamed(mapping, c)] == t.columns[c]
    ensures forall n | n in cols :: |cols[n]| == t.rows
  {
    RenamedIsInjective(t, mapping);
    var cols := map c | c in t.columns :: Renamed(mapping, c) := t.columns[c];
    RenamedKeys(t, mapping, cols);
    RenamedLengths(t, mapping, cols);
    cols
  }

  lemma RenamedLengths<V>(t: Dataset<V>, mapping: map<string, string>, cols: map<string, seq<V>>)
    requires cols.Keys == (set n | n in RenamedNames(t.names, mapping))
    requires forall c | c in t.columns :: cols[Renamed(mapping, c)] == t.columns[c]
    ensures forall n | n in cols :: |cols[n]| == t.rows
  {
    var names := RenamedNames(t.names, mapping);
    forall n | n in cols ensures |cols[n]| == t.rows {
      var i :| 0 <= i < |names| && names[i] == n;
      assert t.names[i] in t.columns;
    }
  }

  lemma RenamedIsInjective<V>(t: Dataset<V>, mapping: map<string, string>)
    requires Distinct(RenamedNames(t.names, mapping))
    ensures forall a, b | a in t.columns && b in t.columns && Renamed(mapping, a) == Renamed(mapping, b) :: a == b
  {
    var names := RenamedNames(t.names, mapping);
    forall a, b | a in t.columns && b in t.columns && Renamed(mapping, a) == Renamed(mapping, b)
      ensures a == b
    {
      var i :| 0 <= i < |t.names| && t.names[i] == a;
      var j :| 0 <= j < |t.names| && t.names[j] == b;
      assert names[i] == names[j];
    }
  }

  lemma RenamedKeys<V>(t: Dataset<V>, mapping: map<string, string>, cols: map<string, seq<V>>)
    requires cols.Keys == set c | c in t.columns :: Renamed(mapping, c)
    ensures cols.Keys == (set n | n in RenamedNames(t.names, mapping))
  {
    var names := RenamedNames(t.names, mapping);
    forall n | n in names ensures n in cols {
      var i :| 0 <= i < |names| && names[i] == n;
      assert t.names[i] in t.columns;
    }
    forall c | c in t.columns ensures Renamed(mapping, c) in names {
      var i :| 0 <= i < |t.names| && t.names[i] == c;
      assert names[i] == Renamed(mapping, c);
    }
  }

  /** A `DatasetDict`: splits in iteration order, each a dataset. */
  datatype Splits<V> = Splits(order: seq<string>, tables: map<string, Dataset<V>>) {
    predicate Valid() {
      Distinct(order) && tables.Keys == (set n | n in order)
    }
  }

  type SplitSet<V> = s: Splits<V> | s.Valid() witness Splits([], map[])

  /** The split name a bare `Dataset` is given when it is viewed as a one-split collection. */
  const Unsplit: string := ""

  /** A bare dataset as a one-entry split collection. */
  function Single<V>(t: Dataset<V>): (s: SplitSet<V>)
    ensures s.order == [Unsplit] && s.tables[Unsplit] == t
  {
    Splits([Unsplit], map[Unsplit := t])
  }

  /** Applies a per-split transformation to every split, as `DatasetDict.map` does. */
  function MapSplits<V>(s: SplitSet<V>, f: Dataset<V> -> Dataset<V>): (r: SplitSet<V>)
    ensures r.order == s.order
    ensures forall n | n in s.tables :: r.tables[n] == f(s.tables[n])
  {
    Splits(s.order, map n | n in s.tables :: f(s.tables[n]))
  }

  /** Applies a fallible per-split operation to every split, in split order; the first failure aborts. */
  function TrySplits<V, E>(s: SplitSet<V>, f: Dataset<V> -> Result<Dataset<V>, E>): (r: Result<SplitSet<V>, E>)
    ensures r.Success? <==> forall n | n in s.tables :: f(s.tables[n]).Success?
    ensures r.Success? ==> r.value.order == s.order &&
                           forall n | n in s.tables :: f(s.tables[n]) == Success(r.value.tables[n])
  {
    var m :- TryNames(s.order, n requires n in s.tables => f(s.tables[n]));
    Success(Splits(s.order, m))
  }

  /** Runs `f` on every name in order, collecting the results by name; the first failure aborts. */
  function TryNames<T, E>(names: seq<string>, f: string --> Result<T, E>): (r: Result<map<string, T>, E>)
    requires forall n | n in names :: f.requires(n)
    ensures r.Success? <==> forall n | n in names :: f(n).Success?
    ensures r.Success? ==> r.value.Keys == (set n | n in names) &&
                           forall n | n in names :: f(n) == Success(r.value[n])
  {
    if |names| == 0 then
      Success(map[])
    else
      var t :- f(names[0]);
      var rest :- TryNames(names[1..], f);
      assert forall n | n in names :: n == names[0] || n in names[1..];
      Success(rest[names[0] := t])
  }
}

=== FILE: template.dfy ===
/** The prompt template of the annotation script: a fixed preamble that explains the
    six keywords, then a last line with one placeholder per keyword. The text is that
    of `scripts/run_prompt_creation2.py`, lines 7-30, cut into short runs; every run
    is free of `[`, which is what lets the placeholder proofs go through. */
module PromptTemplate {
  import opened Text
  import opened Placeholders

  const Preamble01: Plain := Concat([
    "You will be ", "given six ", "descriptive ", "keywords ", "related to an "])

  const Preamble02: Plain := Concat([
    "audio sample of ", "a person's ", "speech. These ", "keywords "])

  const Preamble03: Plain := Concat([
    "include:\n1. The ", "speaker's name\n", "2. The level of ", "reverberation "])

  const Preamble04: Plain := Concat([
    "(very ", "distant-sounding", ", ", "distant-sounding", ", slightly "])

  const Preamble05: Plain := Concat([
    "distant-sounding", ", slightly ", "close-sounding, ", "very ", "close-sounding)\n"])

  const Preamble06: Plain := Concat([
    "3. The amount ", "of noise in the ", "sample ", "(extremely ", "noisy, very "])

  const Preamble07: Plain := Concat([
    "noisy, noisy, ", "slightly noisy, ", "almost no ", "noise, very "])

  const Preamble08: Plain := Concat([
    "clear)\n4. The ", "tone of the ", "speaker's voice ", "(very monotone, "])

  const Preamble09: Plain := Concat([
    "monotone, ", "slightly ", "expressive and ", "animated, ", "expressive and "])

  const Preamble10: Plain := Concat([
    "animated, very ", "expressive and ", "animated)\n5. ", "The pace of the "])

  const Preamble11: Plain := Concat([
    "speaker's ", "delivery (very ", "slowly, slowly, ", "slightly ", "slowly, "])

  const Preamble12: Plain := Concat([
    "moderate speed, ", "slightly fast, ", "fast, very ", "fast)\n6. The "])

  const Preamble13: Plain := Concat([
    "pitch of the ", "speaker's voice ", "(very ", "low-pitch, ", "low-pitch, "])

  const Preamble14: Plain := Concat([
    "slightly ", "low-pitch, ", "moderate pitch, ", "slightly ", "high-pitch, "])

  const Preamble15: Plain := Concat([
    "high-pitch, ", "very ", "high-pitch)\n\n", "Your task is to ", "create a text "])

  const Preamble16: Plain := Concat([
    "description ", "using these ", "keywords that ", "accurately ", "describes the "])

  const Preamble17: Plain := Concat([
    "speech sample.\n", "If the amount ", "of noise is ", "'very noisy' "])

  const Preamble18: Plain := Concat([
    "and the level ", "of ", "reverberation ", "is 'very ", "distant-sounding"])

  const Preamble19: Plain := Concat([
    "', you must ", "include terms ", "such as 'very ", "poor recording' "])

  const Preamble20: Plain := Concat([
    "or `very bad ", "recording` in ", "the ", "description. \n", "Likewise, if "])

  const Preamble21: Plain := Concat([
    "the amount of ", "noise is 'very ", "clear' and the ", "level of "])

  const Preamble22: Plain := Concat([
    "reverberation ", "is 'very ", "close-sounding',", " you must ", "include terms "])

  const Preamble23: Plain := Concat([
    "like 'very good ", "recording' or ", "`excellent ", "recording` in ", "the "])

  const Preamble24: Plain := Concat([
    "description. \n", "You can ", "randomly omit ", "the following "])

  const Preamble25: Plain := Concat([
    "terms, as they ", "are default ", "terms: ", "'moderate ", "speed' and "])

  const Preamble26: Plain := Concat([
    "'moderate ", "pitch'.\nDo not ", "add extra ", "details beyond ", "what has been "])

  const Preamble27: Plain := Concat([
    "provided above. ", "You can change ", "the order of ", "keywords, and "])

  const Preamble28: Plain := Concat([
    "replace ", "synonymous ", "terms.\n\nFor ", "example, given ", "the following "])

  const Preamble29: Plain := Concat([
    "keywords: ", "'Yusuf', ", "'slightly ", "distant-sounding", "', 'noisy', ",
    "'very "])

  const Preamble30: Plain := Concat([
    "expressive and ", "animated', ", "'very slowly', ", "'moderate "])

  const Preamble31: Plain := Concat([
    "pitch', a valid ", "description ", "would be: ", "'Yusuf speaks "])

  const Preamble32: Plain := Concat([
    "very slowly but ", "has a very ", "animated ", "delivery. The ", "recording is "])

  const Preamble33: Plain := Concat([
    "noisy and there ", "is some ", "roominess.'\n", "Another valid ", "description "])

  const Preamble34: Plain := Concat([
    "would be: 'In a ", "noisy room, ", "Yusuf delivers ", "a very animated "])

  const Preamble35: Plain := Concat([
    "and expressive ", "speech, at a ", "very slow ", "pace.'\nAnother ", "valid "])

  const Preamble36: Plain := Concat([
    "description ", "would be: ", "'Yusuf ", "enunciates a ", "very expressive "])

  const Preamble37: Plain := Concat([
    "speech. Yusuf's ", "voice is ", "slightly ", "distant-sounding", ", with some "])

  const Preamble38: Plain := Concat([
    "background ", "noise present. ", "Yusuf speaks ", "very slowly "])

  const Preamble39: Plain := Concat([
    "with a moderate ", "pitch but a ", "very expressive ", "tone.'\n\nDO NOT "])

  const Preamble40: Plain := Concat([
    "use gendered ", "pronouns. Keep ", "the speaker's ", "gender "])

  const Preamble41: Plain := Concat([
    "unknown/neutral ", "in the ", "description\n\n", "Ensure that the ", "generated "])

  const Preamble42: Plain := Concat([
    "description is ", "grammatically ", "correct, easy ", "to understand, "])

  const Preamble43: Plain := Concat([
    "and concise. ", "Only return one ", "and only one ", "description.\n\n"])

  /** Lines 7-28 of the script: every line of the template but the last, each with its line break. */
  const Preamble: Plain := Concat([
    Preamble01, Preamble02, Preamble03, Preamble04, Preamble05, Preamble06,
    Preamble07, Preamble08, Preamble09, Preamble10, Preamble11, Preamble12,
    Preamble13, Preamble14, Preamble15, Preamble16, Preamble17, Preamble18,
    Preamble19, Preamble20, Preamble21, Preamble22, Preamble23, Preamble24,
    Preamble25, Preamble26, Preamble27, Preamble28, Preamble29, Preamble30,
    Preamble31, Preamble32, Preamble33, Preamble34, Preamble35, Preamble36,
    Preamble37, Preamble38, Preamble39, Preamble40, Preamble41, Preamble42,
    Preamble43])

  /** The six fields the template names, in the order `prepare_prompt` fills them. */
  const SlotNames: seq<FieldName> :=
    [Speaker, Reverberation, SdrNoise, SpeechMonotony, SpeakingRate, Pitch]

  const Speaker: FieldName := "speaker"
  const Reverberation: FieldName := "reverberation"
  const SdrNoise: FieldName := "sdr_noise"
  const SpeechMonotony: FieldName := "speech_monotony"
  const SpeakingRate: FieldName := "speaking_rate"
  const Pitch: FieldName := "pitch"

  /** `xs` with `Separator` between neighbours: the keyword list of the last line. */
  function Quoted(xs: seq<Piece>): seq<Piece>
    requires |xs| > 0
    decreases |xs|
  {
    if |xs| == 1 then [xs[0]] else [xs[0], Lit(Separator)] + Quoted(xs[1..])
  }

  /** The whole template with `xs` in the keyword positions of its last line. */
  function Frame(pre: Plain, xs: seq<Piece>): seq<Piece>
    requires |xs| > 0
  {
    [Lit(pre), Lit(Opening)] + Quoted(xs) + [Lit(Closing)]
  }

  /** The six placeholders, in order. */
  const SlotPieces: seq<Piece> := SlotsOf(SlotNames)

  /** The literal runs of the last line around and between the keywords. */
  const Opening: Plain := Concat(["For the ", "keywords: '"])
  const Separator: Plain := "', '"
  const Closing: Plain := Concat(["', the ", "corresponding ", "description is:\n"])

  /** The template as pieces: the preamble, then the last line. */
  const TemplatePieces: seq<Piece> := Frame(Preamble, SlotPieces)

  /** The template text. */
  const Template: string := Render(TemplatePieces)

  /** The keyword list renders as its pieces' texts joined by the separator. */
  lemma {:induction false} RenderQuoted(xs: seq<Piece>)
    requires |xs| > 0
    ensures Render(Quoted(xs)) == Join(Shows(xs), Separator)
    decreases |xs|
  {
    if |xs| > 1 {
      RenderAppend([xs[0], Lit(Separator)], Quoted(xs[1..]));
      RenderQuoted(xs[1..]);
      assert Shows(xs)[1..] == Shows(xs[1..]);
    }
  }

  /** The text of the template with `xs` in the keyword positions. */
  lemma RenderFrame(pre: Plain, xs: seq<Piece>)
    requires |xs| > 0
    ensures Render(Frame(pre, xs)) == pre + Opening + Join(Shows(xs), Separator) + Closing
  {
    RenderAppend([Lit(pre), Lit(Opening)] + Quoted(xs), [Lit(Closing)]);
    RenderAppend([Lit(pre), Lit(Opening)], Quoted(xs));
    RenderQuoted(xs);
  }

  /** Filling the keyword list fills its keyword positions and keeps the separators. */
  lemma {:induction false} FillQuoted(xs: seq<Piece>, name: FieldName, q: Piece)
    requires |xs| > 0
    ensures |Fill(xs, name, q)| == |xs|
    ensures Fill(Quoted(xs), name, q) == Quoted(Fill(xs, name, q))
    decreases |xs|
  {
    if |xs| > 1 {
      FillAppend([xs[0], Lit(Separator)], Quoted(xs[1..]), name, q);
      FillQuoted(xs[1..], name, q);
      assert Fill(xs, name, q)[1..] == Fill(xs[1..], name, q);
    }
  }

  /** A chain of replacements leaves the template's literal text alone and acts on its
      keyword positions only. */
  lemma {:induction false} FillEachFrame(pre: Plain, xs: seq<Piece>, names: seq<FieldName>, qs: seq<Piece>)
    requires |xs| > 0 && |names| == |qs|
    ensures |FillEach(xs, names, qs)| == |xs|
    ensures FillEach(Frame(pre, xs), names, qs) == Frame(pre, FillEach(xs, names, qs))
    decreases |names|
  {
    FillEachPointwise(xs, names, qs);
    if |names| > 0 {
      var (n, q) := (names[0], qs[0]);
      FillAppend([Lit(pre), Lit(Opening)] + Quoted(xs), [Lit(Closing)], n, q);
      FillAppend([Lit(pre), Lit(Opening)], Quoted(xs), n, q);
      FillQuoted(xs, n, q);
      assert Fill([Lit(pre), Lit(Opening)], n, q) == [Lit(pre), Lit(Opening)];
      assert Fill([Lit(Closing)], n, q) == [Lit(Closing)];
      FillEachFrame(pre, Fill(xs, n, q), names[1..], qs[1..]);
    }
  }

  /** The keyword list holds the same slots as the keywords. */
  lemma {:induction false} SlotsQuoted(xs: seq<Piece>, name: FieldName)
    requires |xs| > 0
    ensures Slots(Quoted(xs), name) == Slots(xs, name)
    decreases |xs|
  {
    if |xs| > 1 {
      SlotsAppend([xs[0], Lit(Separator)], Quoted(xs[1..]), name);
      SlotsQuoted(xs[1..], name);
    }
  }

  /** The template's slots are those of its keyword positions. */
  lemma SlotsFrame(pre: Plain, xs: seq<Piece>, name: FieldName)
    requires |xs| > 0
    ensures Slots(Frame(pre, xs), name) == Slots(xs, name)
  {
    SlotsAppend([Lit(pre), Lit(Opening)] + Quoted(xs), [Lit(Closing)], name);
    SlotsAppend([Lit(pre), Lit(Opening)], Quoted(xs), name);
    SlotsQuoted(xs, name);
  }

  /** The six field names are different from one another. */
  lemma SlotNamesDistinct()
    ensures DistinctNames(SlotNames)
  {
  }
}

=== FILE: text.dfy ===
/** The two string operations of Python the script relies on: `str.replace` with no
    count (every occurrence, scanned left to right, never overlapping) and `str.strip`
    with no argument (leading and trailing whitespace removed). */
module Text {

  /** `p` occurs in `s` at position `i`. */
  predicate OccursAt(s: string, p: string, i: nat) {
    i + |p| <= |s| && s[i..i + |p|] == p
  }

  /** `p` occurs somewhere in `s` (Python's `p in s`). */
  predicate Contains(s: string, p: string) {
    exists i: nat | i <= |s| :: OccursAt(s, p, i)
  }

  /** `s.replace(pat, rep)`. An empty pattern matches before every character and at the
      end, so `rep` is inserted at each of those places. */
  function ReplaceAll(s: string, pat: string, rep: string): (r: string)
    decreases |s|
  {
    if |pat| == 0 then
      if |s| == 0 then rep else rep + [s[0]] + ReplaceAll(s[1..], pat, rep)
    else if |s| == 0 then
      s
    else if pat <= s then
      rep + ReplaceAll(s[|pat|..], pat, rep)
    else
      [s[0]] + ReplaceAll(s[1..], pat, rep)
  }

  /** `s.count(pat)`: the non-overlapping occurrences the same scan finds. */
  function Count(s: string, pat: string): (n: nat)
    decreases |s|
  {
    if |pat| == 0 then
      |s| + 1
    else if |s| == 0 then
      0
    else if pat <= s then
      1 + Count(s[|pat|..], pat)
    else
      Count(s[1..], pat)
  }

  /** `sep.join(parts)` for a non-empty list. */
  function Join(parts: seq<string>, sep: string): string
    requires |parts| > 0
  {
    if |parts| == 1 then parts[0] else parts[0] + sep + Join(parts[1..], sep)
  }

  /** One step of the scan past a position where the pattern does not start. */
  lemma ScanMiss(s: string, pat: string, rep: string)
    requires |pat| > 0 && |s| > 0 && !(pat <= s)
    ensures ReplaceAll(s, pat, rep) == [s[0]] + ReplaceAll(s[1..], pat, rep)
    ensures Count(s, pat) == Count(s[1..], pat)
  {
  }

  /** One step of the scan at a position where the pattern starts. */
  lemma ScanHit(s: string, pat: string, rep: string)
    requires |pat| > 0 && pat <= s
    ensures ReplaceAll(s, pat, rep) == rep + ReplaceAll(s[|pat|..], pat, rep)
    ensures Count(s, pat) == 1 + Count(s[|pat|..], pat)
  {
  }

  /** Each replaced occurrence trades `|pat|` characters for `|rep|`. */
  lemma {:induction false} ReplaceLength(s: string, pat: string, rep: string)
    ensures |ReplaceAll(s, pat, rep)| == |s| + Count(s, pat) * (|rep| - |pat|)
    decreases |s|
  {
    if |pat| == 0 {
      if |s| > 0 {
        ReplaceLength(s[1..], pat, rep);
        MulSucc(|s| - 1 + 1, |rep|);
      }
    } else if |s| > 0 {
      if pat <= s {
        ReplaceLength(s[|pat|..], pat, rep);
        MulSucc(Count(s[|pat|..], pat), |rep| - |pat|);
      } else {
        ReplaceLength(s[1..], pat, rep);
      }
    }
  }

  lemma MulSucc(c: int, k: int)
    ensures (c + 1) * k == c * k + k
  {
  }

  /** Replacing a pattern by itself changes nothing. */
  lemma {:induction false} ReplaceBySelf(s: string, pat: string)
    requires |pat| > 0
    ensures ReplaceAll(s, pat, pat) == s
    decreases |s|
  {
    if |s| > 0 {
      if pat <= s {
        ScanHit(s, pat, pat);
        ReplaceBySelf(s[|pat|..], pat);
        assert s == pat + s[|pat|..];
      } else {
        ScanMiss(s, pat, pat);
        ReplaceBySelf(s[1..], pat);
        assert s == [s[0]] + s[1..];
      }
    }
  }


  /** An occurrence at position 0 of `s[1..]` is one at position 1 of `s`, and so on. */
  lemma ContainsTail(s: string, p: string, k: nat)
    requires k <= |s|
    ensures Contains(s[k..], p) ==> Contains(s, p)
  {
    if Contains(s[k..], p) {
      var i: nat :| i <= |s[k..]| && OccursAt(s[k..], p, i);
      assert s[k..][i..i + |p|] == s[k + i..k + i + |p|];
      assert OccursAt(s, p, k + i);
    }
  }

  /** With no occurrence at the front, an occurrence of `s` is one of `s[1..]`. */
  lemma ContainsSkip(s: string, p: string)
    requires |s| > 0 && |p| > 0 && !(p <= s)
    ensures Contains(s, p) ==> Contains(s[1..], p)
  {
    if Contains(s, p) {
      var i: nat :| i <= |s| && OccursAt(s, p, i);
      assert s[1..][i - 1..i - 1 + |p|] == s[i..i + |p|];
      assert OccursAt(s[1..], p, i - 1);
    }
  }

  /** The scan finds something exactly when the pattern occurs. */
  lemma {:induction false} CountPositiveIffContains(s: string, pat: string)
    requires |pat| > 0
    ensures Count(s, pat) > 0 <==> Contains(s, pat)
    decreases |s|
  {
    if |s| == 0 {
    } else if pat <= s {
      assert OccursAt(s, pat, 0);
    } else {
      CountPositiveIffContains(s[1..], pat);
      ContainsTail(s, pat, 1);
      ContainsSkip(s, pat);
    }
  }

  /** Without an occurrence of a non-empty pattern, replacing leaves the string alone. */
  lemma ReplaceAbsent(s: string, pat: string, rep: string)
    requires |pat| > 0 && !Contains(s, pat)
    ensures ReplaceAll(s, pat, rep) == s
  {
    CountPositiveIffContains(s, pat);
    ReplaceUncounted(s, pat, rep);
  }

  lemma {:induction false} ReplaceUncounted(s: string, pat: string, rep: string)
    requires |pat| > 0 && Count(s, pat) == 0
    ensures ReplaceAll(s, pat, rep) == s
    decreases |s|
  {
    if |s| > 0 && !(pat <= s) {
      ReplaceUncounted(s[1..], pat, rep);
      assert s == [s[0]] + s[1..];
    }
  }

  /** Replacing changes the string exactly when the pattern occurs and the replacement
      differs from it. */
  lemma ReplaceIsIdentityIff(s: string, pat: string, rep: string)
    ensures ReplaceAll(s, pat, rep) == s <==> rep == pat || !Contains(s, pat)
  {
    if |pat| == 0 {
      assert OccursAt(s, pat, 0);
      ReplaceLength(s, pat, rep);
      if rep == pat {
        EmptyByEmpty(s);
      }
    } else if rep == pat {
      ReplaceBySelf(s, pat);
    } else if !Contains(s, pat) {
      ReplaceAbsent(s, pat, rep);
    } else {
      ReplaceChanges(s, pat, rep);
    }
  }

  lemma {:induction false} EmptyByEmpty(s: string)
    ensures ReplaceAll(s, [], []) == s
    decreases |s|
  {
    if |s| > 0 {
      EmptyByEmpty(s[1..]);
      assert s == [s[0]] + s[1..];
    }
  }

  /** A different replacement of a non-empty pattern that occurs changes the string. */
  lemma ReplaceChanges(s: string, pat: string, rep: string)
    requires |pat| > 0 && rep != pat && Contains(s, pat)
    ensures ReplaceAll(s, pat, rep) != s
  {
    if |rep| != |pat| {
      ReplaceLength(s, pat, rep);
      CountPositiveIffContains(s, pat);
      MulNonZero(Count(s, pat), |rep| - |pat|);
    } else {
      ReplaceChangesSameLength(s, pat, rep);
    }
  }

  lemma MulNonZero(a: int, b: int)
    requires a != 0 && b != 0
    ensures a * b != 0
  {
  }

  lemma {:induction false} ReplaceChangesSameLength(s: string, pat: string, rep: string)
    requires |pat| > 0 && rep != pat && |rep| == |pat| && Contains(s, pat)
    ensures ReplaceAll(s, pat, rep) != s
    decreases |s|
  {
    var r := ReplaceAll(s, pat, rep);
    if |s| == 0 {
    } else if pat <= s {
      assert r[..|pat|] == rep;
      assert s[..|pat|] == pat;
    } else {
      ContainsSkip(s, pat);
      ReplaceChangesSameLength(s[1..], pat, rep);
      assert r[1..] == ReplaceAll(s[1..], pat, rep);
    }
  }

  /** The characters Python's `str.isspace` accepts. */
  predicate IsSpace(c: char) {
    || ('\t' <= c <= '\r')
    || ('\U{1C}' <= c <= '\U{1F}')
    || c == ' ' || c == '\U{85}' || c == '\U{A0}' || c == '\U{1680}'
    || ('\U{2000}' <= c <= '\U{200A}')
    || c == '\U{2028}' || c == '\U{2029}' || c == '\U{202F}' || c == '\U{205F}' || c == '\U{3000}'
  }

  /** Every character of `s[lo..hi]` is whitespace. */
  predicate SpaceBetween(s: string, lo: nat, hi: nat)
    requires lo <= hi <= |s|
  {
    forall k | lo <= k < hi :: IsSpace(s[k])
  }

  /** `r` is `s[i..j]` where `s[..i]` and `s[j..]` are whitespace and, unless `r` is
      empty, neither end of `r` is: a run of whitespace cut from each end, none left. */
  predicate IsStripOf(r: string, s: string) {
    exists i, j | 0 <= i <= j <= |s| ::
      && r == s[i..j] && SpaceBetween(s, 0, i) && SpaceBetween(s, j, |s|)
      && (i < j ==> !IsSpace(s[i]) && !IsSpace(s[j - 1]))
  }

  /** The scan from position `i` forward past whitespace: the first non-space position
      at or after `i`, or `|s|`. */
  function SkipSpace(s: string, i: nat): (k: nat)
    requires i <= |s|
    ensures i <= k <= |s| && SpaceBetween(s, i, k) && (k < |s| ==> !IsSpace(s[k]))
    decreases |s| - i
  {
    if i == |s| || !IsSpace(s[i]) then i else SkipSpace(s, i + 1)
  }

  /** The scan from position `j` backward past whitespace, never below `lo`: the end of
      the last non-space character before `j`, or `lo`. */
  function BackSpace(s: string, lo: nat, j: nat): (k: nat)
    requires lo <= j <= |s|
    ensures lo <= k <= j && SpaceBetween(s, k, j) && (k > lo ==> !IsSpace(s[k - 1]))
    decreases j
  {
    if j == lo || !IsSpace(s[j - 1]) then j else BackSpace(s, lo, j - 1)
  }

  /** `s.strip()`: both scans, the backward one stopping where the forward one did. */
  function Strip(s: string): (r: string)
    ensures IsStripOf(r, s)
  {
    var i := SkipSpace(s, 0);
    var j := BackSpace(s, i, |s|);
    assert 0 <= i <= j <= |s| && SpaceBetween(s, 0, i) && SpaceBetween(s, j, |s|)
           && (i < j ==> !IsSpace(s[i]) && !IsSpace(s[j - 1]));
    s[i..j]
  }

  /** Any position after a run of whitespace that stops at a non-space is where the
      forward scan stops. */
  lemma {:induction false} SkipUnique(s: string, i: nat, k: nat)
    requires i <= k <= |s| && SpaceBetween(s, i, k) && (k < |s| ==> !IsSpace(s[k]))
    ensures SkipSpace(s, i) == k
    decreases k - i
  {
    if i < k {
      assert IsSpace(s[i]);
      SkipUnique(s, i + 1, k);
    }
  }

  /** Any position before a run of whitespace that follows a non-space (or is `lo`) is
      where the backward scan stops. */
  lemma {:induction false} BackUnique(s: string, lo: nat, j: nat, k: nat)
    requires lo <= k <= j <= |s| && SpaceBetween(s, k, j) && (k > lo ==> !IsSpace(s[k - 1]))
    ensures BackSpace(s, lo, j) == k
    decreases j - k
  {
    if k < j {
      assert IsSpace(s[j - 1]);
      BackUnique(s, lo, j - 1, k);
    }
  }

  /** There is only one way to strip a string, so `Strip` is that way. */
  lemma StripUnique(r: string, s: string)
    requires IsStripOf(r, s)
    ensures r == Strip(s)
  {
    var i, j :| 0 <= i <= j <= |s| && r == s[i..j] && SpaceBetween(s, 0, i) && SpaceBetween(s, j, |s|)
                && (i < j ==> !IsSpace(s[i]) && !IsSpace(s[j - 1]));
    if i == j {
      SkipUnique(s, 0, |s|);
      BackUnique(s, |s|, |s|, |s|);
    } else {
      StripAt(s, i, j);
    }
  }

  /** The text between the first and the last non-space character is the stripped text. */
  lemma StripAt(s: string, i: nat, j: nat)
    requires i < j <= |s| && SpaceBetween(s, 0, i) && SpaceBetween(s, j, |s|)
    requires !IsSpace(s[i]) && !IsSpace(s[j - 1])
    ensures Strip(s) == s[i..j]
  {
    SkipUnique(s, 0, i);
    BackUnique(s, i, |s|, j);
  }

  /** Stripping twice is stripping once. */
  lemma StripIdempotent(s: string)
    ensures Strip(Strip(s)) == Strip(s)
  {
    StripEnds(s);
    StripTrimmed(Strip(s));
  }

  /** The stripped text neither starts nor ends with whitespace. */
  lemma StripEnds(s: string)
    ensures |Strip(s)| > 0 ==> !IsSpace(Strip(s)[0]) && !IsSpace(Strip(s)[|Strip(s)| - 1])
  {
    var i := SkipSpace(s, 0);
    var j := BackSpace(s, i, |s|);
    assert Strip(s) == s[i..j];
  }

  /** A text that neither starts nor ends with whitespace strips to itself. */
  lemma StripTrimmed(r: string)
    requires |r| > 0 ==> !IsSpace(r[0]) && !IsSpace(r[|r| - 1])
    ensures Strip(r) == r
  {
    if |r| > 0 {
      StripAt(r, 0, |r|);
      assert r[0..|r|] == r;
    } else {
      SkipUnique(r, 0, 0);
      BackUnique(r, 0, 0, 0);
    }
  }
}

=== FILE: wrappers.dfy ===
/** Failure-compatible wrappers shared by the whole model. */
module Wrappers {

  /** A value that may be absent (Python's `None`). */
  datatype Option<+T> = None | Some(value: T)

  /** Either a value or the error the Python code would raise instead. Usable with `:-`. */
  datatype Result<+T, +E> = Success(value: T) | Failure(error: E) {

    predicate IsFailure() {
      Failure?
    }

    function PropagateFailure<U>(): Result<U, E>
      requires Failure?
    {
      Failure(error)
    }

    function Extract(): T
      requires Success?
    {
      value
    }

    /** The same outcome with the error translated by `f`. */
    function MapFailure<E2>(f: E -> E2): (r: Result<T, E2>)
      ensures r.Success? <==> Success?
      ensures Success? ==> r.value == value
      ensures Failure? ==> r.error == f(error)
    {
      match this
      case Success(v) => Success(v)
      case Failure(e) => Failure(f(e))
    }
  }
}
